=== FILE: README.md ===
# RenderDoc MCP extension: a Dafny model of its pure core

This project models the pure logic of the RenderDoc extension that answers
queries about a loaded GPU frame capture. It also proves properties of that
model. The replay engine stays outside the model. Whatever the engine would
return (root actions, texture and buffer descriptors, byte payloads, the
action at an event) is handed to each function as input.

What is modelled:

- **Category flags** (`FlagCodec`). `serialize_flags` walks the fixed
  19-entry table and lists the name of every category whose bit is set.
  A flag mask is the set of its set bit positions. Positions that no
  category uses stand for unknown bits.
- **The action-tree filter** (`ActionFilter`). `serialize_actions` applies
  its checks in source order:
  1. exclude-marker pruning;
  2. the marker-scope latch, threaded down each branch;
  3. the event-id range, which applies only to non-markers;
  4. `only_actions` flattening;
  5. the category filter, which applies only to non-markers;
  6. the scope gate;
  7. inclusion, which for a marker means that some child survived.

  Its guarantees are proved in three modules:
  - `FilterProvenance`: every emitted node comes from a visited action that
    passed its own checks;
  - `FilterGuarantees`: properties of a single filter run;
  - `FilterEquivalences`: two filter runs with different settings compared.
- **Tree helpers** (`Helpers`): `flatten_actions`, `count_children` and
  `get_all_shader_stages`.
- **Action queries** (`ActionService`):
  - `get_draw_calls`;
  - the counters and top-level markers of `get_frame_summary`;
  - the output shaping of `get_draw_call_details`;
  - the "No capture loaded" error that every query checks first.
- **Parsers** (`Parsers`, with `Text` and `Numerals`): `parse_stage`,
  `parse_resource_id` and `extract_numeric_id`, including Python's
  `str.split("::")[-1]` and `int()` on the id's tail.
- **Resource queries** (`ResourceService`):
  - `_find_texture_by_id`;
  - the sub-resource checks of `get_texture_data`, in their fixed order;
  - the mip sizes `max(1, d >> mip)`;
  - depth-slice extraction;
  - the buffer lookup of `get_buffer_contents` and its read-length default.
- **Shader variables** (`VariableSerializer`): how `serialize_variables`
  cuts each value to `rows * columns` entries and recurses into members.

Hierarchical mode and `only_actions` can disagree about which leaves
survive. Say a marker filter is given, and a matching Push marker is nested
inside a non-matching one:

- In hierarchical mode, the outer marker fails the scope gate (it is not
  yet in scope), so its whole subtree is lost. This happens even though
  the inner marker opens the scope for its children.
- With `only_actions`, the outer marker is spliced out before the scope
  gate is consulted, so the draw under the inner marker is kept.

So `only_actions` does not merely remove marker wrappers whenever a marker
filter is present. The parameter documentation of `serialize_actions`
(renderdoc_extension/utils/serializers.py:95 and :99) describes
`marker_filter` as keeping actions under a marker whose name contains the
string, and `only_actions` as only dropping the marker entries. By that
reading the nested draw belongs in both outputs. Hierarchical mode loses it
because the outer marker fails the gate at
renderdoc_extension/utils/serializers.py:165 and is then dropped at
:189-191, together with the children it computed. The model follows the code.
`FilterEquivalences.NestedMatchOnlySurvivesFlattening` exhibits the case.
`FilterEquivalences.OnlyActionsSplicesMarkers` proves the splicing law
wherever the scope gate passes, which includes every run without a marker
filter.

## Model

| member | source | states |
|---|---|---|
| FlagCodec.SerializeFlagsInTableOrder | renderdoc_extension/utils/serializers.py:11-39 | The names come out in table order, with no duplicates. |
| FlagCodec.SerializeFlagsListsSetBits | renderdoc_extension/utils/serializers.py:11-39 | A category's name is listed exactly when its bit is set, and every listed name belongs to a set category. |
| FlagCodec.FlagNameInjective | renderdoc_extension/utils/serializers.py:15-35 | The 19 table names are pairwise different, so a name identifies its category. |
| FlagCodec.UnknownBitsIgnored | renderdoc_extension/utils/serializers.py:36-38 | Only the bits of the 19 known categories affect the output. |
| FlagCodec.EmptyIffNoCategory | renderdoc_extension/utils/serializers.py:36-39 | The list is empty exactly when no known category is set. In particular a mask of 0 gives `[]`. |
| FlagCodec.IndexedInstancedDraw | renderdoc_extension/utils/serializers.py:15-39 | A mask holding Drawcall, Indexed and Instanced serialises to `["Drawcall", "Indexed", "Instanced"]`, whatever order the mask was built in. |
| ActionFilter.SerializeActions | renderdoc_extension/utils/serializers.py:110-210 | Every `children` entry, at any depth, holds a non-empty list. Without `include_children`, no emitted dictionary has a `children` entry. |
| ActionFilter.SerializeAction | renderdoc_extension/utils/serializers.py:110-208 | One loop iteration contributes one of three things: nothing; the action's own dictionary, whose children are the filtered children under the scope after this action; or, only for a marker under `only_actions`, those filtered children spliced in its place. Every `children` entry it emits is non-empty, and without `include_children` none is present. |
| FilterProvenance.ProvenanceForest | renderdoc_extension/utils/serializers.py:110-208 | The output, read in pre-order at every depth, is a subsequence of the heads of the visited actions that pass their own checks. So sibling order is kept, and nothing is invented or duplicated. |
| FilterProvenance.EmittedFrom | renderdoc_extension/utils/serializers.py:110-208 | Every dictionary emitted at any depth is the head of a visited action that passed its own checks. |
| FilterProvenance.MarkerItemIffMarker | renderdoc_extension/utils/serializers.py:114-118 | A projected dictionary names PushMarker, SetMarker or PopMarker exactly when its action is a marker. |
| FilterGuarantees.EmittedLeavesPassFilters | renderdoc_extension/utils/serializers.py:131-194 | Every emitted non-marker lies within whichever event-id bounds are given. When a category filter is on, it also lists one of the wanted names. |
| FilterGuarantees.OnlyActionsEmitsNoMarkers | renderdoc_extension/utils/serializers.py:140-156 | With `only_actions`, no Push, Set or Pop marker appears at any depth. |
| FilterGuarantees.EmittedUnderMatchingMarker | renderdoc_extension/utils/serializers.py:125-194 | With a marker filter and no enclosing scope, every emitted dictionary at any depth projects an action that is, or lies under, a Push marker whose name contains the filter. |
| FilterGuarantees.RootsOpenScope | renderdoc_extension/utils/serializers.py:125-191 | With a marker filter and markers kept, every top-level dictionary is a Push marker whose name contains the filter. |
| FilterGuarantees.MarkersKeepChildren | renderdoc_extension/utils/serializers.py:167-208 | Whatever the filters, every marker dictionary, at any depth, has a non-empty `children` list. A childless marker is never emitted. |
| FilterGuarantees.NoChildrenNoMarkers | renderdoc_extension/utils/serializers.py:170-191 | Without `include_children`, the output is a flat list of non-marker dictionaries. |
| FilterGuarantees.EmptyRangeEmitsNothing | renderdoc_extension/utils/serializers.py:131-194 | When both bounds are given and the lower one exceeds the upper, nothing is emitted. Markers are not range-checked, but they still need a surviving child. |
| FilterGuarantees.NoFilterKeepsEveryLeaf | renderdoc_extension/utils/serializers.py:110-208 | With no filters and `include_children` set, the non-marker dictionaries of the output (at every depth, in pre-order) are exactly the projections of the forest's non-marker actions. Each appears once, in pre-order. |
| FilterEquivalences.SameChecksSameOutput | renderdoc_extension/utils/serializers.py:105-162 | Two filter settings that switch on the same checks, with the same arguments, give the same output. |
| FilterEquivalences.EmptyMeansNoConstraint | renderdoc_extension/utils/serializers.py:105-162 | An empty marker filter, exclusion list or category list means the same as none. |
| FilterEquivalences.ScopeLatch | renderdoc_extension/utils/serializers.py:125-182 | Once inside a matching scope, the marker filter has no further effect: the scope flag is never cleared. |
| FilterEquivalences.ExclusionIsPruning | renderdoc_extension/utils/serializers.py:120-123 | Filtering with `exclude_markers` gives the same result as filtering, without it, the forest from which every matching marker has been cut together with its whole subtree. Non-markers are never cut. |
| FilterEquivalences.OnlyActionsSplicesMarkers | renderdoc_extension/utils/serializers.py:140-156 | Where the scope gate passes, the `only_actions` output is the hierarchical output with each marker dictionary replaced, in place and in order, by its children. |
| FilterEquivalences.NestedMatchOnlySurvivesFlattening | renderdoc_extension/utils/serializers.py:125-194 | With marker filter "A", a draw in marker "A" inside marker "Frame" gives `[]` in hierarchical mode but the draw itself with `only_actions`. |
| Helpers.FlattenConcat | renderdoc_extension/utils/helpers.py:12-19 | Flattening a concatenation of forests gives the concatenation of their flattenings. |
| Helpers.FlattenIsPreorder | renderdoc_extension/utils/helpers.py:12-19 | In the flattening, every entry is immediately followed by the flattening of its own children. |
| Helpers.FlattenLength | renderdoc_extension/utils/helpers.py:12-29 | The flattening's length is the sum over the roots of one plus `count_children`. |
| Helpers.CountChildren | renderdoc_extension/utils/helpers.py:22-29 | The descendant count is at least the number of direct children. |
| Helpers.CountChildrenIsFlattenLength | renderdoc_extension/utils/helpers.py:12-29 | `count_children(a)` is the length of the flattening of `a`'s children. |
| Helpers.AllShaderStages | renderdoc_extension/utils/helpers.py:32-41 | Six pairwise different stages. |
| Helpers.AllShaderStagesComplete | renderdoc_extension/utils/helpers.py:32-41 | Every shader stage is in the list. |
| Parsers.AllStagesFollowTable | renderdoc_extension/utils/helpers.py:32-41 | The stage list follows the order of `parse_stage`'s table (vertex, hull, domain, geometry, pixel, compute), and each listed stage is what its key parses to. |
| ActionService.GetDrawCalls | renderdoc_extension/services/action_service.py:17-51 | With no capture loaded, the query fails with "No capture loaded" and with nothing else. Otherwise it returns the filter's output for the root actions. |
| ActionService.CountActionsIsFold | renderdoc_extension/services/action_service.py:78-99 | The recursive count visits exactly the actions of the pre-order flattening, in that order. |
| ActionService.FrameCounters | renderdoc_extension/services/action_service.py:67-99 | `total_actions` is the number of actions in the whole forest. Each counter counts the actions, at any depth, that have its category (Push or Set for `markers`), so no counter exceeds the total. |
| ActionService.MarkersCountPushOrSet | renderdoc_extension/services/action_service.py:93-94 | A Pop marker that is neither a Push nor a Set marker leaves `markers` at 0. |
| ActionService.DrawAndClearCountTwice | renderdoc_extension/services/action_service.py:83-88 | Any action that is both a draw and a clear moves both counters, because each category is tested on its own. |
| ActionService.TopLevelMarkersInOrder | renderdoc_extension/services/action_service.py:101-110 | `top_level_markers` keeps root order: it is a subsequence of the roots' entries. |
| ActionService.TopLevelMarkersExactly | renderdoc_extension/services/action_service.py:101-110 | Every root Push marker is listed, and every entry belongs to a root Push marker. |
| ActionService.EntryChildCount | renderdoc_extension/services/action_service.py:105-109 | `child_count` is the size of the marker's flattened subtree below it. |
| ActionService.SummaryCounts | renderdoc_extension/services/action_service.py:76-118 | The summary's total and statistics are the frame counters over the whole forest: each counter is the number of actions of its category at any depth, with markers counting Push or Set. Its `top_level_markers` is the list of top-level Push markers. |
| ActionService.SummaryTotalIsForestSize | renderdoc_extension/services/action_service.py:76-118 | The summary's `total_actions` is the length of the pre-order flattening. |
| ActionService.EmptyFrameSummary | renderdoc_extension/services/action_service.py:67-110 | An empty frame has all-zero statistics, a total of 0 and no top-level markers. |
| ActionService.GetFrameSummary | renderdoc_extension/services/action_service.py:53-128 | With no capture loaded, the query fails with "No capture loaded". Otherwise it reports the capture's texture and buffer counts. |
| ActionService.CollectOutputs | renderdoc_extension/services/action_service.py:161-166 | The entries list exactly the non-null output slots, each once, in strictly increasing index order, each with its printed id. |
| ActionService.GetDrawCallDetails | renderdoc_extension/services/action_service.py:130-177 | The query fails with "No capture loaded" first, then with "No action at event" when the lookup finds nothing, and otherwise succeeds. On success it copies the event id, action id, name, index and instance counts and the four draw offsets, and lists its category names, its non-null outputs, and `depth_output` exactly when `depthOut` is non-null. |
| Parsers.ParseStageIff | renderdoc_extension/utils/parsers.py:11-25 | A string is accepted exactly when its lower-case form is one of the six keys, and it then yields that key's stage. |
| Parsers.ParseStageLowerCase | renderdoc_extension/utils/parsers.py:14-25 | Each stage name is accepted in lower case and gives its stage. |
| Parsers.ParseStageUpperCase | renderdoc_extension/utils/parsers.py:14-25 | Each stage name is accepted in upper case and gives its stage. |
| Parsers.ParseStageCapitalised | renderdoc_extension/utils/parsers.py:14-25 | Each stage name is accepted with its first letter capitalised and gives its stage. |
| Parsers.ParseStage | renderdoc_extension/utils/parsers.py:22-25 | On a rejected string, the error names the original string. |
| Parsers.ExtractNumericId | renderdoc_extension/utils/parsers.py:39-44 | Succeeds exactly when the piece after the last `::` (or the whole string, if there is no `::`) is an integer literal. An error names that piece. |
| Parsers.ParseResourceId | renderdoc_extension/utils/parsers.py:27-37 | Succeeds on exactly the same strings. |
| Parsers.ParsersAgree | renderdoc_extension/utils/parsers.py:27-44 | The two parsers accept the same strings and agree on the number. |
| Parsers.BareNumberRoundTrip | renderdoc_extension/utils/parsers.py:44 | The decimal rendering of any integer parses back to that integer. |
| Parsers.PrefixedNumberRoundTrip | renderdoc_extension/utils/parsers.py:42-43 | `prefix + "::" + decimal` parses back to the number, for every prefix that does not end in a colon. |
| Parsers.RenderRoundTrip | renderdoc_extension/utils/parsers.py:39-44 | A printed resource id (`ResourceId::<n>`) parses back to its number under both parsers. |
| Parsers.TrailingSeparatorFails | renderdoc_extension/utils/parsers.py:42-43 | A string that ends in `::` never parses. |
| Parsers.LastSeparatorWins | renderdoc_extension/utils/parsers.py:42-43 | `"a::b::7"` parses to 7. |
| Text.ContainsIffOccurs | renderdoc_extension/utils/parsers.py:42 | The `"::" in s` test holds exactly when the separator occurs at some position of the string, both directions. |
| Text.SplitJoin | renderdoc_extension/utils/parsers.py:42-43 | Joining the pieces of `split("::")` with `::` gives back the input. |
| Text.SplitNoSeparator | renderdoc_extension/utils/parsers.py:42-44 | `split("::")` returns the whole string as its only piece exactly when `::` does not occur in it. |
| Numerals.ParseInt | renderdoc_extension/utils/parsers.py:43-44 | `int()` succeeds exactly on an optionally signed string of decimal digits. |
| Numerals.IntToStringRoundTrip | renderdoc_extension/utils/parsers.py:43-44 | `int(str(n)) == n` for every integer `n`. |
| ResourceService.FindTextureById | renderdoc_extension/services/resource_service.py:19-27 | Fails exactly when the target string does not parse. Otherwise it returns the first texture whose id's number is the target, and nothing exactly when no texture has that number. |
| ResourceService.ScanFindsFirst | renderdoc_extension/services/resource_service.py:22-27 | The lookup returns the first texture whose numeric id equals the target, and returns nothing exactly when no texture has that id. |
| ResourceService.ScanMatchesIds | renderdoc_extension/services/resource_service.py:22-27 | Comparing each texture's printed id, parsed back, with the target picks the same texture as comparing the ids' numbers. |
| ResourceService.MipDimProperties | renderdoc_extension/services/resource_service.py:152-154 | A mip size is at least 1 and at most the full size (or 1). Level 0 has the full size when that is at least 1. Each level is half the previous one, rounded down, but at least 1, so sizes never grow. |
| ResourceService.CheckPrecedence | renderdoc_extension/services/resource_service.py:124-168 | The checks run in a fixed order. Each error (mip, slice, sample, depth slice on a non-3D texture, depth slice out of range) is reported exactly when its own check fails and every earlier check passed. Nothing is reported exactly when all pass. |
| ResourceService.GetTextureData | renderdoc_extension/services/resource_service.py:110-214 | Errors come in this order: "No capture loaded", then an invalid id, then "Texture not found", then the first failing sub-resource check, then a failed read. On success the width and height are `max(1, d >> mip)` of the texture's (so at least 1), the mip is the requested one, and the reported depth is 1 for a depth slice and the mip depth otherwise. |
| ResourceService.ReadTexture | renderdoc_extension/services/resource_service.py:125-208 | Once the texture is found: the first failing sub-resource check is the error; otherwise the read fails exactly when the engine call raises. On success the id, mip, slice, sample and depth slice echo the request. Width and height are `max(1, d >> mip)` of the texture's. The depth is 1 for a depth slice and the mip depth otherwise. `total_depth` is the mip depth for a 3D texture and 1 otherwise, and without a depth slice the data is exactly what the engine returned. |
| ResourceService.DepthSliceRead | renderdoc_extension/services/resource_service.py:183-208 | When every check passes for a depth slice `ds` (which needs a 3D texture and `0 <= ds < mip_depth`) and the engine returns data, the read succeeds and returns bytes `[ds*bps, ds*bps + bps)` of what the engine returned, with `bps = len // mip_depth`. That range lies inside the data, and the output depth is 1. |
| ResourceService.SlicesTile | renderdoc_extension/services/resource_service.py:186-190 | Laid end to end, the first `n` depth slices are exactly the first `n * bps` bytes. So slices are contiguous, disjoint and in order. |
| ResourceService.FindBuffer | renderdoc_extension/services/resource_service.py:45-49 | Returns the first buffer with the wanted id (every earlier buffer has another id), and returns nothing exactly when no buffer has it. |
| ResourceService.GetBufferContents | renderdoc_extension/services/resource_service.py:29-71 | Errors come in this order: "No capture loaded", then an invalid id, then "Buffer not found", each exactly under its condition. When the buffer is found the query succeeds. The reply echoes the requested id and offset and reports the buffer's size. Its bytes are what the engine returns for the defaulted length, and its length is the number of those bytes. |
| ResourceService.ReadLengthDefault | renderdoc_extension/services/resource_service.py:56 | A non-positive length reads the whole buffer, and a positive one reads that many bytes. |
| VariableSerializer.SerializeVariables | renderdoc_extension/utils/serializers.py:41-73 | One dictionary per variable, in order. Each copies the name, type and shape, and has a value exactly for Float, Int and UInt. That value is the longest prefix of the type's view holding at most `rows * columns` entries. |
| VariableSerializer.SerializeVariable | renderdoc_extension/utils/serializers.py:44-70 | `members` is present exactly when the variable has members, with one entry per member. |
| VariableSerializer.SerializeKeepsShape | renderdoc_extension/utils/serializers.py:66-68 | The output has the input's tree shape: every variable at every depth appears under its own name, in order, and nothing else appears. |
| VariableSerializer.SerializeMirrors | renderdoc_extension/utils/serializers.py:41-73 | At every depth, each dictionary describes the variable at the same position of the input tree. |

## Left out

- The replay-thread marshalling (`_invoke`) and every engine call (`GetRootActions`, `GetTextures`, `GetBuffers`, `SetFrameEvent`, `GetAPIProperties`) are left out. Their results are inputs: a `Capture` or `Resources` value, `None` for "no capture loaded".
- ResourceService.GetTextureData: a malformed texture id makes `int()` raise inside the replay callback, and the source does not catch it there. `_invoke` comes from the caller and is not part of this model. It is assumed to let the exception propagate unchanged, and `InvalidId` stands for that exception. It is ordered after "No capture loaded" and before "Texture not found". The buffer path is different: it catches the parse error and reports "Invalid resource ID" itself.
- `ctx.GetAction`, `GetTextureData` and `GetBufferData` become parameters: an optional action, and two functions from the request to the bytes. A `GetTextureData` that raises is a `None` from its function. An exception from `GetBufferData` is not modelled, because the source does not catch it.
- `GetName(structured_file)` is the action's `name` field. The API name is an opaque string.
- Base64 encoding is left out. The models keep the raw bytes.
- The `format` and `dimension` strings of `get_texture_data` and the whole of `get_texture_info` are left out. They only copy engine-provided descriptor fields and call `format.Name()`.
- The numeric values of `rd.ActionFlags` are left out. Each category is a distinct abstract bit position.
- `str(ResourceId)` is taken to print `ResourceId::<n>`, the format the parser's comment names. The engine's actual printing is not part of this model.
- `str(var.type)` is left out. The dictionary keeps the type itself.
- Numerals.ParseInt: models `int()` as an optional sign followed by ASCII decimal digits. Python's extra leniency (surrounding whitespace, underscores, non-ASCII digits) is not modelled.
- Parsers.ParseStage: lower-casing is modelled for ASCII letters only. Python's full Unicode `lower()` is not modelled.
- VariableSerializer.SerializeVariables: the element values of `f32v`, `s32v` and `u32v` are opaque integers. The `try`/`except` around the slicing is not modelled, because the slice itself cannot raise.
- Engine integer widths (unsigned 32-bit counts and ids) are unbounded naturals or integers. No operation in the core wraps.
- `pipeline_service.py` and `capture_manager.py` are not part of this model. They only shape engine results and do file I/O.

=== FILE: action_filter.dfy ===
/** The action-tree filter and projector of `Serializers.serialize_actions`.

    The filter walks a forest of actions and, per action, applies its checks in
    a fixed order: exclude-marker pruning, the marker-scope latch, the event-id
    range (non-markers only), marker flattening (`only_actions`), the category
    filter (non-markers only), the scope gate, and finally inclusion, which for
    a marker means "some child survived". Every function here is pure; the
    scope latch is an argument threaded down each branch. */
module ActionFilter {
  import opened Results
  import opened RenderDoc
  import opened Text
  import opened FlagCodec

  /** The optional filters of one query. Python tests `marker_filter`,
      `exclude_markers` and `flags_filter` for truthiness, so `None` and an
      empty value both switch them off; the event-id bounds are tested with
      `is not None`, so `Some(0)` is a real bound. */
  datatype Filter = Filter(
    markerFilter: Option<string>,
    excludeMarkers: Option<seq<string>>,
    eventIdMin: Option<int>,
    eventIdMax: Option<int>,
    onlyActions: bool,
    flagsFilter: Option<seq<string>>)

  /** Every filter at its default. */
  const NoFilter: Filter := Filter(None, None, None, None, false, None)

  predicate MarkerFilterOn(f: Filter) {
    f.markerFilter.Some? && |f.markerFilter.value| > 0
  }

  predicate ExcludeOn(f: Filter) {
    f.excludeMarkers.Some? && |f.excludeMarkers.value| > 0
  }

  predicate FlagsFilterOn(f: Filter) {
    f.flagsFilter.Some? && |f.flagsFilter.value| > 0
  }

  /** `any(ex in name for ex in patterns)`. */
  predicate NameMatchesAny(name: string, patterns: seq<string>) {
    exists i :: 0 <= i < |patterns| && Contains(name, patterns[i])
  }

  /** Check 1: a marker whose name contains an excluded pattern is dropped
      together with its whole subtree. */
  predicate Excluded(f: Filter, a: Action) {
    ExcludeOn(f) && IsMarker(a) && NameMatchesAny(a.name, f.excludeMarkers.value)
  }

  /** Check 2: only a Push marker whose name contains the marker filter
      opens a matching scope. */
  predicate OpensScope(f: Filter, a: Action) {
    MarkerFilterOn(f) && IsPushMarker(a) && Contains(a.name, f.markerFilter.value)
  }

  /** The scope flag handed to the children of `a`: inherited, or opened by
      `a`; nothing ever clears it. */
  function ScopeAfter(f: Filter, a: Action, inScope: bool): bool {
    inScope || OpensScope(f, a)
  }

  /** The inclusive event-id bounds that are given. */
  predicate InIdRange(f: Filter, eventId: int) {
    && (f.eventIdMin.None? || eventId >= f.eventIdMin.value)
    && (f.eventIdMax.None? || eventId <= f.eventIdMax.value)
  }

  /** Check 3: markers are never out of range. */
  predicate InRange(f: Filter, a: Action) {
    IsMarker(a) || InIdRange(f, a.eventId)
  }

  /** Some name of `names` is one of `wanted`. */
  predicate SharesName(names: seq<string>, wanted: seq<string>) {
    exists i :: 0 <= i < |names| && names[i] in wanted
  }

  /** Check 5: a non-marker needs one of its category names in the filter;
      markers are exempt. */
  predicate PassesFlags(f: Filter, a: Action) {
    !FlagsFilterOn(f) || IsMarker(a) || SharesName(SerializeFlags(a.flags), f.flagsFilter.value)
  }

  /** Check 6: with a marker filter, only nodes inside a matching scope pass. */
  predicate PassesScope(f: Filter, inScope: bool) {
    !MarkerFilterOn(f) || inScope
  }

  /** One projected action: the dictionary the filter emits. `children` is
      present exactly when the filtered children are non-empty. */
  datatype Item = Item(
    eventId: nat,
    actionId: nat,
    name: string,
    flags: seq<string>,
    numIndices: nat,
    numInstances: nat,
    children: ChildList)

  /** The `children` entry of a dictionary: absent, or a list. */
  datatype ChildList = NoChildren | Children(items: seq<Item>)

  /** The `children` entry for a filtered child list. */
  function Wrap(kids: seq<Item>): ChildList {
    if |kids| > 0 then Children(kids) else NoChildren
  }

  /** The dictionary emitted for an included action. */
  function Project(a: Action, kids: seq<Item>): Item {
    Item(a.eventId, a.actionId, a.name, SerializeFlags(a.flags), a.numIndices, a.numInstances, Wrap(kids))
  }

  /** Every `children` entry, at any depth, holds a non-empty list. */
  predicate ItemsKeyed(items: seq<Item>)
    decreases items, 1
  {
    forall i :: 0 <= i < |items| ==> ItemKeyed(items[i])
  }

  predicate ItemKeyed(it: Item)
    decreases it, 0
  {
    ChildrenKeyed(it.children)
  }

  predicate ChildrenKeyed(children: ChildList)
    decreases children
  {
    match children
    case NoChildren => true
    case Children(kids) => |kids| > 0 && ItemsKeyed(kids)
  }

  /** `serialize_actions(actions, ..., _in_matching_marker=inScope)`: the
      projections of the actions that survive, in sibling order. */
  function SerializeActions(actions: seq<Action>, includeChildren: bool, f: Filter, inScope: bool): (out: seq<Item>)
    ensures ItemsKeyed(out)
    ensures !includeChildren ==> forall i :: 0 <= i < |out| ==> out[i].children.NoChildren?
    decreases actions, 1
  {
    if |actions| == 0 then []
    else
      SerializeAction(actions[0], includeChildren, f, inScope)
        + SerializeActions(actions[1..], includeChildren, f, inScope)
  }

  /** The filtered children of `a`, when children are requested. */
  function SerializeChildren(a: Action, includeChildren: bool, f: Filter, inScope: bool): (out: seq<Item>)
    ensures ItemsKeyed(out)
    ensures !includeChildren ==> out == []
    decreases a, 1
  {
    if includeChildren && |a.children| > 0
    then SerializeActions(a.children, includeChildren, f, inScope)
    else []
  }

  /** The output one loop iteration contributes for `a`: nothing, `a`'s own
      projection, or (a flattened marker) its filtered children. */
  function SerializeAction(a: Action, includeChildren: bool, f: Filter, inScope: bool): (out: seq<Item>)
    ensures ItemsKeyed(out)
    ensures !includeChildren ==> forall i :: 0 <= i < |out| ==> out[i].children.NoChildren?
    ensures || out == []
            || out == [Project(a, SerializeChildren(a, includeChildren, f, ScopeAfter(f, a, inScope)))]
            || (f.onlyActions && IsMarker(a) && out == SerializeChildren(a, includeChildren, f, ScopeAfter(f, a, inScope)))
    decreases a, 2
  {
    if Excluded(f, a) then []
    else
      var scope := ScopeAfter(f, a, inScope);
      if f.onlyActions && IsMarker(a) then
        SerializeChildren(a, includeChildren, f, scope)
      else if !PassesFlags(f, a) then []
      else
        var kids := SerializeChildren(a, includeChildren, f, scope);
        var keep :=
          if IsMarker(a) then |kids| > 0 && PassesScope(f, scope)
          else InRange(f, a) && PassesScope(f, scope);
        if keep then [Project(a, kids)] else []
  }
}

=== FILE: action_service.dfy ===
/** The pure parts of `ActionService`: the action-list query, the frame
    summary's counters and top-level markers, and the shaping of one
    action's details. The replay controller is replaced by the data it
    would hand the callbacks: a loaded capture's root actions and resource
    counts, and the engine's answer to an event lookup. */
module ActionService {
  import opened Results
  import opened RenderDoc
  import opened Sequences
  import opened FlagCodec
  import opened Helpers
  import opened ActionFilter
  import opened Parsers

  datatype ServiceError =
    | NoCaptureLoaded
    | NoActionAt(eventId: int)

  /** What the replay controller exposes of a loaded capture. */
  datatype Capture = Capture(api: string, roots: seq<Action>, textureCount: nat, bufferCount: nat)

  /** `get_draw_calls`: `None` stands for "no capture loaded". */
  function GetDrawCalls(capture: Option<Capture>, includeChildren: bool, f: Filter): (r: Result<seq<Item>, ServiceError>)
    ensures r.Err? <==> capture.None?
    ensures r.Err? ==> r.error == NoCaptureLoaded
    ensures r.Ok? ==> ItemsKeyed(r.value)
  {
    match capture
    case None => Err(NoCaptureLoaded)
    case Some(c) => Ok(SerializeActions(c.roots, includeChildren, f, false))
  }

  /** The six statistics counters. */
  datatype Stats = Stats(drawCalls: nat, dispatches: nat, clears: nat, copies: nat, presents: nat, markers: nat)

  /** The running state of `count_actions`: the total and the counters. */
  datatype Tally = Tally(total: nat, stats: Stats)

  const ZeroTally: Tally := Tally(0, Stats(0, 0, 0, 0, 0, 0))

  /** A Push or a Set marker: the mask test of the `markers` counter. */
  predicate CountsAsMarker(a: Action) {
    Has(a.flags, PushMarker) || Has(a.flags, SetMarker)
  }

  function Inc(b: bool): nat {
    if b then 1 else 0
  }

  /** The body of the `count_actions` loop for one action: one more action,
      and one more in every counter whose category it has. */
  function Bump(t: Tally, a: Action): (u: Tally)
    ensures u.total == t.total + 1
    ensures u.stats.drawCalls == t.stats.drawCalls + Inc(Has(a.flags, Drawcall))
    ensures u.stats.dispatches == t.stats.dispatches + Inc(Has(a.flags, Dispatch))
    ensures u.stats.clears == t.stats.clears + Inc(Has(a.flags, Clear))
    ensures u.stats.copies == t.stats.copies + Inc(Has(a.flags, Copy))
    ensures u.stats.presents == t.stats.presents + Inc(Has(a.flags, Present))
    ensures u.stats.markers == t.stats.markers + Inc(CountsAsMarker(a))
  {
    var s := t.stats;
    Tally(t.total + 1, Stats(
      if Has(a.flags, Drawcall) then s.drawCalls + 1 else s.drawCalls,
      if Has(a.flags, Dispatch) then s.dispatches + 1 else s.dispatches,
      if Has(a.flags, Clear) then s.clears + 1 else s.clears,
      if Has(a.flags, Copy) then s.copies + 1 else s.copies,
      if Has(a.flags, Present) then s.presents + 1 else s.presents,
      if CountsAsMarker(a) then s.markers + 1 else s.markers))
  }

  /** `count_actions`: each action is counted, then its children, then its
      later siblings, all into the one running tally. */
  function CountActions(actions: seq<Action>, t: Tally): Tally
    decreases actions
  {
    if |actions| == 0 then t
    else CountActions(actions[1..], CountActions(actions[0].children, Bump(t, actions[0])))
  }

  /** The tally of a flat list, counted front to back. */
  function Fold(flat: seq<Action>, t: Tally): Tally
    decreases |flat|
  {
    if |flat| == 0 then t else Fold(flat[1..], Bump(t, flat[0]))
  }

  lemma {:induction false} FoldConcat(xs: seq<Action>, ys: seq<Action>, t: Tally)
    ensures Fold(xs + ys, t) == Fold(ys, Fold(xs, t))
    decreases |xs|
  {
    if |xs| == 0 {
      assert xs + ys == ys;
    } else {
      assert (xs + ys)[0] == xs[0];
      assert (xs + ys)[1..] == xs[1..] + ys;
      FoldConcat(xs[1..], ys, Bump(t, xs[0]));
    }
  }

  /** The recursive walk counts exactly the actions of the pre-order
      flattening, in that order. */
  lemma {:induction false} CountActionsIsFold(actions: seq<Action>, t: Tally)
    ensures CountActions(actions, t) == Fold(FlattenActions(actions), t)
    decreases actions
  {
    if |actions| > 0 {
      var a := actions[0];
      var afterKids := CountActions(a.children, Bump(t, a));
      CountActionsIsFold(a.children, Bump(t, a));
      CountActionsIsFold(actions[1..], afterKids);
      var flat := FlattenActions(actions);
      assert flat == [a] + (FlattenActions(a.children) + FlattenActions(actions[1..]));
      FoldConcat([a], FlattenActions(a.children) + FlattenActions(actions[1..]), t);
      assert Fold([a], t) == Bump(t, a) by {
        assert [a][1..] == [];
      }
      FoldConcat(FlattenActions(a.children), FlattenActions(actions[1..]), Bump(t, a));
    }
  }

  /** How many actions of `flat` have category `g`. */
  function Occurrences(flat: seq<Action>, g: ActionFlag): (n: nat)
    ensures n <= |flat|
  {
    if |flat| == 0 then 0 else Inc(Has(flat[0].flags, g)) + Occurrences(flat[1..], g)
  }

  /** How many actions of `flat` are Push or Set markers. */
  function MarkerOccurrences(flat: seq<Action>): (n: nat)
    ensures n <= |flat|
  {
    if |flat| == 0 then 0 else Inc(CountsAsMarker(flat[0])) + MarkerOccurrences(flat[1..])
  }

  /** The tally that counting `flat` adds to `t`: one per action in the
      total, and per category the number of actions that have it. */
  predicate CountedFrom(u: Tally, t: Tally, flat: seq<Action>) {
    && u.total == t.total + |flat|
    && u.stats.drawCalls == t.stats.drawCalls + Occurrences(flat, Drawcall)
    && u.stats.dispatches == t.stats.dispatches + Occurrences(flat, Dispatch)
    && u.stats.clears == t.stats.clears + Occurrences(flat, Clear)
    && u.stats.copies == t.stats.copies + Occurrences(flat, Copy)
    && u.stats.presents == t.stats.presents + Occurrences(flat, Present)
    && u.stats.markers == t.stats.markers + MarkerOccurrences(flat)
  }

  lemma {:induction false} FoldCounts(flat: seq<Action>, t: Tally)
    ensures CountedFrom(Fold(flat, t), t, flat)
    decreases |flat|
  {
    if |flat| > 0 {
      FoldCounts(flat[1..], Bump(t, flat[0]));
    }
  }

  /** The frame counters: `total_actions` is the number of actions in the
      whole forest, and each counter is the number of actions, at any depth,
      with its category (Push or Set for `markers`); so no counter exceeds
      the total. */
  lemma FrameCounters(roots: seq<Action>)
    ensures CountedFrom(CountActions(roots, ZeroTally), ZeroTally, FlattenActions(roots))
    ensures CountActions(roots, ZeroTally).total == CountForest(roots)
  {
    CountActionsIsFold(roots, ZeroTally);
    FoldCounts(FlattenActions(roots), ZeroTally);
    FlattenLength(roots);
  }

  /** A Pop marker on its own is never counted as a marker. */
  lemma MarkersCountPushOrSet(a: Action)
    requires Has(a.flags, PopMarker) && !Has(a.flags, PushMarker) && !Has(a.flags, SetMarker)
    ensures Bump(ZeroTally, a).stats.markers == 0
  {
  }

  /** One action with several categories moves several counters: a draw
      that is also a clear is counted once as each. */
  lemma DrawAndClearCountTwice(a: Action)
    ensures Has(a.flags, Drawcall) && Has(a.flags, Clear) ==>
              Bump(ZeroTally, a).stats.drawCalls == 1 && Bump(ZeroTally, a).stats.clears == 1
  {
  }

  /** One entry of `top_level_markers`. */
  datatype MarkerEntry = MarkerEntry(name: string, eventId: nat, childCount: nat)

  function EntryOf(a: Action): MarkerEntry {
    MarkerEntry(a.name, a.eventId, CountChildren(a))
  }

  /** The loop over the roots that lists every root Push marker. */
  function TopLevelMarkers(roots: seq<Action>): seq<MarkerEntry> {
    if |roots| == 0 then []
    else (if IsPushMarker(roots[0]) then [EntryOf(roots[0])] else []) + TopLevelMarkers(roots[1..])
  }

  function Entries(roots: seq<Action>): (es: seq<MarkerEntry>)
    ensures |es| == |roots|
    ensures forall i :: 0 <= i < |roots| ==> es[i] == EntryOf(roots[i])
  {
    if |roots| == 0 then [] else [EntryOf(roots[0])] + Entries(roots[1..])
  }

  /** `top_level_markers` keeps root order: it is a subsequence of the
      roots' entries. */
  lemma {:induction false} TopLevelMarkersInOrder(roots: seq<Action>)
    ensures Subseq(TopLevelMarkers(roots), Entries(roots))
    decreases roots
  {
    if |roots| > 0 {
      var a := roots[0];
      var rest := TopLevelMarkers(roots[1..]);
      TopLevelMarkersInOrder(roots[1..]);
      assert Entries(roots) == [EntryOf(a)] + Entries(roots[1..]);
      if IsPushMarker(a) {
        assert TopLevelMarkers(roots) == [EntryOf(a)] + rest;
        SubseqCons(EntryOf(a), rest, Entries(roots[1..]));
      } else {
        assert TopLevelMarkers(roots) == rest;
        SubseqPrepend(rest, [EntryOf(a)], Entries(roots[1..]));
      }
    }
  }

  /** `top_level_markers` has an entry for exactly the root Push markers:
      every root Push marker is listed, and every entry is one (descendants
      and other roots never are). */
  lemma {:induction false} TopLevelMarkersExactly(roots: seq<Action>)
    ensures forall a :: a in roots && IsPushMarker(a) ==> EntryOf(a) in TopLevelMarkers(roots)
    ensures forall e :: e in TopLevelMarkers(roots) ==> exists a :: a in roots && IsPushMarker(a) && e == EntryOf(a)
    decreases roots
  {
    if |roots| > 0 {
      var a := roots[0];
      TopLevelMarkersExactly(roots[1..]);
      assert forall b :: b in roots <==> b == a || b in roots[1..];
    }
  }

  /** Each entry's `child_count` is the size of the marker's flattened
      subtree below it. */
  lemma EntryChildCount(a: Action)
    ensures EntryOf(a).childCount == |FlattenActions(a.children)|
  {
    CountChildrenIsFlattenLength(a);
  }

  /** The summary `get_frame_summary` returns. */
  datatype FrameSummary = FrameSummary(
    api: string,
    totalActions: nat,
    statistics: Stats,
    topLevelMarkers: seq<MarkerEntry>,
    textures: nat,
    buffers: nat)

  function GetFrameSummary(capture: Option<Capture>): (r: Result<FrameSummary, ServiceError>)
    ensures r.Err? <==> capture.None?
    ensures r.Err? ==> r.error == NoCaptureLoaded
    ensures r.Ok? ==> r.value.textures == capture.value.textureCount && r.value.buffers == capture.value.bufferCount
  {
    match capture
    case None => Err(NoCaptureLoaded)
    case Some(c) =>
      var t := CountActions(c.roots, ZeroTally);
      Ok(FrameSummary(c.api, t.total, t.stats, TopLevelMarkers(c.roots), c.textureCount, c.bufferCount))
  }

  /** The summary's statistics are the frame counters of the whole forest,
      and its marker list is the top-level Push markers. */
  lemma SummaryCounts(c: Capture)
    ensures var r := GetFrameSummary(Some(c)).value;
            && CountedFrom(Tally(r.totalActions, r.statistics), ZeroTally, FlattenActions(c.roots))
            && r.topLevelMarkers == TopLevelMarkers(c.roots)
  {
    FrameCounters(c.roots);
  }

  /** The summary's total is the number of actions in the forest. */
  lemma SummaryTotalIsForestSize(c: Capture)
    ensures GetFrameSummary(Some(c)).value.totalActions == |FlattenActions(c.roots)|
  {
    FrameCounters(c.roots);
  }

  /** An empty frame has all-zero statistics and no top-level markers. */
  lemma EmptyFrameSummary(c: Capture)
    requires c.roots == []
    ensures GetFrameSummary(Some(c)).value.totalActions == 0
    ensures GetFrameSummary(Some(c)).value.statistics == Stats(0, 0, 0, 0, 0, 0)
    ensures GetFrameSummary(Some(c)).value.topLevelMarkers == []
  {
  }

  /** One entry of `outputs`: the slot and the printed resource id. */
  datatype OutputEntry = OutputEntry(index: nat, resourceId: string)

  /** The entries list exactly the non-null slots among the first `n` of
      `outputs`, each once, in slot order, each with its printed id. */
  predicate ListsSlotsBefore(outputs: seq<ResourceId>, entries: seq<OutputEntry>, n: nat)
    requires n <= |outputs|
  {
    EntriesValid(outputs, entries, n) && IndicesIncrease(entries) && CoversSlots(outputs, entries, n)
  }

  /** Every entry is a non-null slot below `n`, with its printed id. */
  predicate EntriesValid(outputs: seq<ResourceId>, entries: seq<OutputEntry>, n: nat)
    requires n <= |outputs|
  {
    forall k :: 0 <= k < |entries| ==>
      entries[k].index < n && outputs[entries[k].index] != NullId
      && entries[k].resourceId == Render(outputs[entries[k].index])
  }

  predicate IndicesIncrease(entries: seq<OutputEntry>) {
    forall k, l :: 0 <= k < l < |entries| ==> entries[k].index < entries[l].index
  }

  /** Every non-null slot below `n` has an entry. */
  predicate CoversSlots(outputs: seq<ResourceId>, entries: seq<OutputEntry>, n: nat)
    requires n <= |outputs|
  {
    forall i :: 0 <= i < n && outputs[i] != NullId ==>
      exists k :: 0 <= k < |entries| && entries[k].index == i
  }

  /** The entries list exactly the non-null slots of `outputs`. */
  predicate ListsNonNullSlots(outputs: seq<ResourceId>, entries: seq<OutputEntry>) {
    ListsSlotsBefore(outputs, entries, |outputs|)
  }

  /** A null slot adds nothing. */
  lemma SkipNullSlot(outputs: seq<ResourceId>, entries: seq<OutputEntry>, n: nat)
    requires n < |outputs| && outputs[n] == NullId
    requires ListsSlotsBefore(outputs, entries, n)
    ensures ListsSlotsBefore(outputs, entries, n + 1)
  {
  }

  /** A non-null slot adds one entry at the end. */
  lemma TakeSlot(outputs: seq<ResourceId>, entries: seq<OutputEntry>, n: nat)
    requires n < |outputs| && outputs[n] != NullId
    requires ListsSlotsBefore(outputs, entries, n)
    ensures ListsSlotsBefore(outputs, entries + [OutputEntry(n, Render(outputs[n]))], n + 1)
  {
    var more := entries + [OutputEntry(n, Render(outputs[n]))];
    assert EntriesValid(outputs, more, n + 1) by {
      forall k | 0 <= k < |more|
        ensures more[k].index < n + 1 && outputs[more[k].index] != NullId
        ensures more[k].resourceId == Render(outputs[more[k].index])
      {
        if k < |entries| {
          assert more[k] == entries[k];
        }
      }
    }
    assert IndicesIncrease(more) by {
      forall k, l | 0 <= k < l < |more|
        ensures more[k].index < more[l].index
      {
        assert more[k] == entries[k];
        if l < |entries| {
          assert more[l] == entries[l];
        }
      }
    }
    assert CoversSlots(outputs, more, n + 1) by {
      forall i | 0 <= i < n + 1 && outputs[i] != NullId
        ensures exists k :: 0 <= k < |more| && more[k].index == i
      {
        if i == n {
          assert more[|entries|].index == n;
        } else {
          var k :| 0 <= k < |entries| && entries[k].index == i;
          assert more[k] == entries[k];
        }
      }
    }
  }

  /** The `for i, output in enumerate(action.outputs)` loop. */
  method CollectOutputs(outputs: seq<ResourceId>) returns (entries: seq<OutputEntry>)
    ensures ListsNonNullSlots(outputs, entries)
  {
    entries := [];
    var i := 0;
    while i < |outputs|
      invariant 0 <= i <= |outputs|
      invariant ListsSlotsBefore(outputs, entries, i)
    {
      if outputs[i] != NullId {
        TakeSlot(outputs, entries, i);
        entries := entries + [OutputEntry(i, Render(outputs[i]))];
      } else {
        SkipNullSlot(outputs, entries, i);
      }
      i := i + 1;
    }
  }

  /** The dictionary `get_draw_call_details` returns. */
  datatype Details = Details(
    eventId: nat,
    actionId: nat,
    name: string,
    flags: seq<string>,
    numIndices: nat,
    numInstances: nat,
    baseVertex: int,
    vertexOffset: int,
    instanceOffset: int,
    indexOffset: int,
    outputs: seq<OutputEntry>,
    depthOutput: Option<string>)

  /** `get_draw_call_details`; `found` is the engine's answer to looking up
      the event (`ctx.GetAction`). */
  method GetDrawCallDetails(capture: Option<Capture>, eventId: int, found: Option<Action>)
    returns (r: Result<Details, ServiceError>)
    ensures capture.None? ==> r == Err(NoCaptureLoaded)
    ensures capture.Some? && found.None? ==> r == Err(NoActionAt(eventId))
    ensures capture.Some? && found.Some? ==> r.Ok?
    ensures r.Ok? ==>
              var a := found.value;
              && r.value.eventId == a.eventId && r.value.actionId == a.actionId && r.value.name == a.name
              && r.value.flags == SerializeFlags(a.flags)
              && r.value.numIndices == a.numIndices && r.value.numInstances == a.numInstances
              && r.value.baseVertex == a.draw.baseVertex && r.value.vertexOffset == a.draw.vertexOffset
              && r.value.instanceOffset == a.draw.instanceOffset && r.value.indexOffset == a.draw.indexOffset
              && ListsNonNullSlots(a.draw.outputs, r.value.outputs)
              && (r.value.depthOutput.Some? <==> a.draw.depthOut != NullId)
              && (r.value.depthOutput.Some? ==> r.value.depthOutput.value == Render(a.draw.depthOut))
  {
    if capture.None? {
      return Err(NoCaptureLoaded);
    }
    if found.None? {
      return Err(NoActionAt(eventId));
    }
    var a := found.value;
    var outs := CollectOutputs(a.draw.outputs);
    var depth := if a.draw.depthOut != NullId then Some(Render(a.draw.depthOut)) else None;
    r := Ok(Details(
      a.eventId, a.actionId, a.name, SerializeFlags(a.flags), a.numIndices, a.numInstances,
      a.draw.baseVertex, a.draw.vertexOffset, a.draw.instanceOffset, a.draw.indexOffset,
      outs, depth));
  }
}

=== FILE: filter_equivalences.dfy ===
/** Laws relating `serialize_actions` on different inputs or with
    different filters: concatenation of forests, exclusion as pruning,
    "no constraint" spellings of the truthiness-tested filters, the scope
    latch, and marker flattening as a rewrite of the hierarchical output. */
module FilterEquivalences {
  import opened Results
  import opened RenderDoc
  import opened Text
  import opened ActionFilter
  import opened FilterProvenance

  /** The filter works root by root: filtering two forests one after the
      other gives the concatenation of the two outputs. */
  lemma {:induction false} SerializeConcat(xs: seq<Action>, ys: seq<Action>, includeChildren: bool, f: Filter, inScope: bool)
    ensures SerializeActions(xs + ys, includeChildren, f, inScope)
         == SerializeActions(xs, includeChildren, f, inScope) + SerializeActions(ys, includeChildren, f, inScope)
    decreases xs
  {
    if |xs| == 0 {
      assert xs + ys == ys;
    } else {
      assert (xs + ys)[0] == xs[0];
      assert (xs + ys)[1..] == xs[1..] + ys;
      SerializeConcat(xs[1..], ys, includeChildren, f, inScope);
    }
  }

  /** A one-root forest is filtered as its root. */
  lemma SerializeSingle(a: Action, includeChildren: bool, f: Filter, inScope: bool)
    ensures SerializeActions([a], includeChildren, f, inScope) == SerializeAction(a, includeChildren, f, inScope)
  {
    assert [a][1..] == [];
  }

  /** Two filters that switch on the same checks with the same arguments. */
  predicate SameChecks(f: Filter, g: Filter) {
    && MarkerFilterOn(f) == MarkerFilterOn(g)
    && (MarkerFilterOn(f) ==> f.markerFilter == g.markerFilter)
    && ExcludeOn(f) == ExcludeOn(g)
    && (ExcludeOn(f) ==> f.excludeMarkers == g.excludeMarkers)
    && FlagsFilterOn(f) == FlagsFilterOn(g)
    && (FlagsFilterOn(f) ==> f.flagsFilter == g.flagsFilter)
    && f.eventIdMin == g.eventIdMin
    && f.eventIdMax == g.eventIdMax
    && f.onlyActions == g.onlyActions
  }

  /** Filters that switch on the same checks give the same output. */
  lemma {:induction false} SameChecksSameOutput(actions: seq<Action>, includeChildren: bool, f: Filter, g: Filter, inScope: bool)
    requires SameChecks(f, g)
    ensures SerializeActions(actions, includeChildren, f, inScope) == SerializeActions(actions, includeChildren, g, inScope)
    decreases actions, 1
  {
    if |actions| > 0 {
      SameChecksSameOutputNode(actions[0], includeChildren, f, g, inScope);
      SameChecksSameOutput(actions[1..], includeChildren, f, g, inScope);
    }
  }

  lemma {:induction false} SameChecksSameChildren(a: Action, includeChildren: bool, f: Filter, g: Filter, inScope: bool)
    requires SameChecks(f, g)
    ensures SerializeChildren(a, includeChildren, f, inScope) == SerializeChildren(a, includeChildren, g, inScope)
    decreases a, 1
  {
    if includeChildren && |a.children| > 0 {
      SameChecksSameOutput(a.children, includeChildren, f, g, inScope);
    }
  }

  lemma {:induction false} SameChecksSameOutputNode(a: Action, includeChildren: bool, f: Filter, g: Filter, inScope: bool)
    requires SameChecks(f, g)
    ensures SerializeAction(a, includeChildren, f, inScope) == SerializeAction(a, includeChildren, g, inScope)
    decreases a, 2
  {
    SameDecisions(a, f, g, inScope);
    SameChecksSameChildren(a, includeChildren, f, g, ScopeAfter(f, a, inScope));
  }

  /** Filters with the same checks decide every check alike. */
  lemma SameDecisions(a: Action, f: Filter, g: Filter, inScope: bool)
    requires SameChecks(f, g)
    ensures Excluded(f, a) == Excluded(g, a)
    ensures ScopeAfter(f, a, inScope) == ScopeAfter(g, a, inScope)
    ensures PassesFlags(f, a) == PassesFlags(g, a)
    ensures InRange(f, a) == InRange(g, a)
    ensures forall s :: PassesScope(f, s) == PassesScope(g, s)
  {
  }

  /** Each truthiness-tested filter with an empty value replaced by `None`. */
  function Normalize(f: Filter): (g: Filter)
    ensures g.markerFilter.Some? ==> |g.markerFilter.value| > 0
    ensures g.excludeMarkers.Some? ==> |g.excludeMarkers.value| > 0
    ensures g.flagsFilter.Some? ==> |g.flagsFilter.value| > 0
  {
    f.(markerFilter := if MarkerFilterOn(f) then f.markerFilter else None,
       excludeMarkers := if ExcludeOn(f) then f.excludeMarkers else None,
       flagsFilter := if FlagsFilterOn(f) then f.flagsFilter else None)
  }

  /** An empty marker filter, exclusion list or category list means the
      same as none at all. */
  lemma EmptyMeansNoConstraint(actions: seq<Action>, includeChildren: bool, f: Filter, inScope: bool)
    ensures SerializeActions(actions, includeChildren, f, inScope)
         == SerializeActions(actions, includeChildren, Normalize(f), inScope)
  {
    SameChecksSameOutput(actions, includeChildren, f, Normalize(f), inScope);
  }

  /** The scope latch is never cleared: once inside a matching marker, the
      marker filter has no further effect on anything below. */
  lemma {:induction false} ScopeLatch(actions: seq<Action>, includeChildren: bool, f: Filter)
    ensures SerializeActions(actions, includeChildren, f, true)
         == SerializeActions(actions, includeChildren, f.(markerFilter := None), true)
    decreases actions, 1
  {
    if |actions| > 0 {
      ScopeLatchNode(actions[0], includeChildren, f);
      ScopeLatch(actions[1..], includeChildren, f);
    }
  }

  lemma {:induction false} ScopeLatchChildren(a: Action, includeChildren: bool, f: Filter)
    ensures SerializeChildren(a, includeChildren, f, true)
         == SerializeChildren(a, includeChildren, f.(markerFilter := None), true)
    decreases a, 1
  {
    if includeChildren && |a.children| > 0 {
      ScopeLatch(a.children, includeChildren, f);
    }
  }

  lemma {:induction false} ScopeLatchNode(a: Action, includeChildren: bool, f: Filter)
    ensures SerializeAction(a, includeChildren, f, true)
         == SerializeAction(a, includeChildren, f.(markerFilter := None), true)
    decreases a, 2
  {
    var g := f.(markerFilter := None);
    assert ScopeAfter(f, a, true) && ScopeAfter(g, a, true);
    assert Excluded(f, a) == Excluded(g, a);
    assert PassesFlags(f, a) == PassesFlags(g, a);
    ScopeLatchChildren(a, includeChildren, f);
  }

  /** The forest with every excluded marker removed together with its
      subtree. */
  function Prune(actions: seq<Action>, f: Filter): seq<Action>
    decreases actions, 1
  {
    if |actions| == 0 then []
    else PruneNode(actions[0], f) + Prune(actions[1..], f)
  }

  function PruneNode(a: Action, f: Filter): seq<Action>
    decreases a, 2
  {
    if Excluded(f, a) then [] else [a.(children := Prune(a.children, f))]
  }

  /** Exclusion is pruning: filtering with `exclude_markers` is filtering,
      without it, the forest from which every excluded marker and all its
      descendants have been cut. */
  lemma {:induction false} ExclusionIsPruning(actions: seq<Action>, includeChildren: bool, f: Filter, inScope: bool)
    ensures SerializeActions(actions, includeChildren, f, inScope)
         == SerializeActions(Prune(actions, f), includeChildren, f.(excludeMarkers := None), inScope)
    decreases actions, 1
  {
    if |actions| > 0 {
      var g := f.(excludeMarkers := None);
      ExclusionIsPruningNode(actions[0], includeChildren, f, inScope);
      ExclusionIsPruning(actions[1..], includeChildren, f, inScope);
      SerializeConcat(PruneNode(actions[0], f), Prune(actions[1..], f), includeChildren, g, inScope);
    }
  }

  lemma {:induction false} ExclusionIsPruningChildren(a: Action, includeChildren: bool, f: Filter, inScope: bool)
    ensures SerializeChildren(a, includeChildren, f, inScope)
         == SerializeChildren(a.(children := Prune(a.children, f)), includeChildren, f.(excludeMarkers := None), inScope)
    decreases a, 1
  {
    if includeChildren && |a.children| > 0 {
      ExclusionIsPruning(a.children, includeChildren, f, inScope);
    }
  }

  lemma {:induction false} ExclusionIsPruningNode(a: Action, includeChildren: bool, f: Filter, inScope: bool)
    ensures SerializeAction(a, includeChildren, f, inScope)
         == SerializeActions(PruneNode(a, f), includeChildren, f.(excludeMarkers := None), inScope)
    decreases a, 2
  {
    if !Excluded(f, a) {
      var g := f.(excludeMarkers := None);
      var b := a.(children := Prune(a.children, f));
      SerializeSingle(b, includeChildren, g, inScope);
      PrunedDecisions(a, f, inScope);
      ExclusionIsPruningChildren(a, includeChildren, f, ScopeAfter(f, a, inScope));
    }
  }

  /** An action that is not excluded meets, with its children pruned and
      without the exclusion list, every check the way it did before. */
  lemma PrunedDecisions(a: Action, f: Filter, inScope: bool)
    requires !Excluded(f, a)
    ensures
      var g := f.(excludeMarkers := None);
      var b := a.(children := Prune(a.children, f));
      && !Excluded(g, b)
      && ScopeAfter(f, a, inScope) == ScopeAfter(g, b, inScope)
      && PassesFlags(f, a) == PassesFlags(g, b)
      && InRange(f, a) == InRange(g, b)
      && IsMarker(a) == IsMarker(b)
      && (forall s :: PassesScope(f, s) == PassesScope(g, s))
      && (forall kids :: Project(a, kids) == Project(b, kids))
  {
  }

  /** The hierarchical output with every marker dictionary replaced by its
      children, at every depth. */
  function Unmark(items: seq<Item>): seq<Item>
    decreases items, 1
  {
    if |items| == 0 then [] else UnmarkItem(items[0]) + Unmark(items[1..])
  }

  function UnmarkItem(it: Item): seq<Item>
    decreases it, 1
  {
    var kids := UnmarkKids(it.children);
    if IsMarkerItem(it) then kids else [it.(children := Wrap(kids))]
  }

  function UnmarkKids(c: ChildList): seq<Item>
    decreases c, 0
  {
    match c
    case NoChildren => []
    case Children(kids) => Unmark(kids)
  }

  lemma {:induction false} UnmarkConcat(xs: seq<Item>, ys: seq<Item>)
    ensures Unmark(xs + ys) == Unmark(xs) + Unmark(ys)
    decreases xs
  {
    if |xs| == 0 {
      assert xs + ys == ys;
    } else {
      assert (xs + ys)[0] == xs[0];
      assert (xs + ys)[1..] == xs[1..] + ys;
      UnmarkConcat(xs[1..], ys);
    }
  }

  /** Where the marker filter cannot reject anything (it is off, or the
      scope is already open), `only_actions` output is the hierarchical
      output with each marker spliced out in favour of its children, in
      order. */
  lemma {:induction false} OnlyActionsSplicesMarkers(actions: seq<Action>, includeChildren: bool, f: Filter, inScope: bool)
    requires PassesScope(f, inScope)
    ensures SerializeActions(actions, includeChildren, f.(onlyActions := true), inScope)
         == Unmark(SerializeActions(actions, includeChildren, f.(onlyActions := false), inScope))
    decreases actions, 1
  {
    if |actions| > 0 {
      var fh := f.(onlyActions := false);
      OnlyActionsSplicesMarkersNode(actions[0], includeChildren, f, inScope);
      OnlyActionsSplicesMarkers(actions[1..], includeChildren, f, inScope);
      UnmarkConcat(SerializeAction(actions[0], includeChildren, fh, inScope),
                   SerializeActions(actions[1..], includeChildren, fh, inScope));
    }
  }

  lemma {:induction false} OnlyActionsSplicesChildren(a: Action, includeChildren: bool, f: Filter, inScope: bool)
    requires PassesScope(f, inScope)
    ensures SerializeChildren(a, includeChildren, f.(onlyActions := true), inScope)
         == Unmark(SerializeChildren(a, includeChildren, f.(onlyActions := false), inScope))
    decreases a, 1
  {
    if includeChildren && |a.children| > 0 {
      OnlyActionsSplicesMarkers(a.children, includeChildren, f, inScope);
    }
  }

  lemma {:induction false} OnlyActionsSplicesMarkersNode(a: Action, includeChildren: bool, f: Filter, inScope: bool)
    requires PassesScope(f, inScope)
    ensures SerializeAction(a, includeChildren, f.(onlyActions := true), inScope)
         == Unmark(SerializeAction(a, includeChildren, f.(onlyActions := false), inScope))
    decreases a, 2
  {
    if !Excluded(f, a) {
      OnlyActionsSplicesChildren(a, includeChildren, f, ScopeAfter(f, a, inScope));
      if IsMarker(a) {
        SpliceMarker(a, includeChildren, f, inScope);
      } else {
        SpliceOther(a, includeChildren, f, inScope);
      }
    }
  }

  /** The step of the splice law for a marker, given the law for its
      children. */
  lemma SpliceMarker(a: Action, includeChildren: bool, f: Filter, inScope: bool)
    requires PassesScope(f, inScope) && !Excluded(f, a) && IsMarker(a)
    requires
      var scope := ScopeAfter(f, a, inScope);
      SerializeChildren(a, includeChildren, f.(onlyActions := true), scope)
        == Unmark(SerializeChildren(a, includeChildren, f.(onlyActions := false), scope))
    ensures SerializeAction(a, includeChildren, f.(onlyActions := true), inScope)
         == Unmark(SerializeAction(a, includeChildren, f.(onlyActions := false), inScope))
  {
    var fh := f.(onlyActions := false);
    var scope := ScopeAfter(f, a, inScope);
    assert !Excluded(fh, a) && ScopeAfter(fh, a, inScope) == scope;
    var kh := SerializeChildren(a, includeChildren, fh, scope);
    var out := SerializeAction(a, includeChildren, fh, inScope);
    if kh == [] {
      assert out == [];
    } else {
      assert out == [Project(a, kh)];
      MarkerItemIffMarker(a, kh);
      assert UnmarkKids(Wrap(kh)) == Unmark(kh);
      assert Unmark(out) == UnmarkItem(Project(a, kh)) + Unmark([]);
    }
  }

  /** The step of the splice law for an action that is not a marker, given
      the law for its children. */
  lemma SpliceOther(a: Action, includeChildren: bool, f: Filter, inScope: bool)
    requires PassesScope(f, inScope) && !Excluded(f, a) && !IsMarker(a)
    requires
      var scope := ScopeAfter(f, a, inScope);
      SerializeChildren(a, includeChildren, f.(onlyActions := true), scope)
        == Unmark(SerializeChildren(a, includeChildren, f.(onlyActions := false), scope))
    ensures SerializeAction(a, includeChildren, f.(onlyActions := true), inScope)
         == Unmark(SerializeAction(a, includeChildren, f.(onlyActions := false), inScope))
  {
    var fo := f.(onlyActions := true);
    var fh := f.(onlyActions := false);
    var scope := ScopeAfter(f, a, inScope);
    var kh := SerializeChildren(a, includeChildren, fh, scope);
    var ko := SerializeChildren(a, includeChildren, fo, scope);
    var keep := PassesFlags(f, a) && InRange(f, a) && PassesScope(f, scope);
    NonMarkerOutput(a, includeChildren, fo, inScope, keep);
    NonMarkerOutput(a, includeChildren, fh, inScope, keep);
    if keep {
      MarkerItemIffMarker(a, kh);
      assert UnmarkKids(Wrap(kh)) == Unmark(kh);
      assert Unmark([Project(a, kh)]) == UnmarkItem(Project(a, kh)) + Unmark([]);
      assert UnmarkItem(Project(a, kh)) == [Project(a, ko)];
    }
  }

  /** A non-marker contributes its own projection when it passes the category,
      id-range and scope checks, and nothing otherwise; `onlyActions` plays no
      part. */
  lemma NonMarkerOutput(a: Action, includeChildren: bool, g: Filter, inScope: bool, keep: bool)
    requires !Excluded(g, a) && !IsMarker(a)
    requires keep == (PassesFlags(g, a) && InRange(g, a) && PassesScope(g, ScopeAfter(g, a, inScope)))
    ensures SerializeAction(a, includeChildren, g, inScope)
         == if keep then [Project(a, SerializeChildren(a, includeChildren, g, ScopeAfter(g, a, inScope)))] else []
  {
  }

  /** A draw inside a Push marker named "A" inside a Push marker named
      "Frame". */
  function ExampleLeaf(dp: DrawParams, draw: FlagMask): Action {
    Action(3, 3, "Draw", draw, 3, 1, dp, [])
  }

  function ExampleInner(dp: DrawParams, push: FlagMask, draw: FlagMask): Action {
    Action(2, 2, "A", push, 0, 0, dp, [ExampleLeaf(dp, draw)])
  }

  function ExampleOuter(dp: DrawParams, push: FlagMask, draw: FlagMask): Action {
    Action(1, 1, "Frame", push, 0, 0, dp, [ExampleInner(dp, push, draw)])
  }

  /** The filter of the example: only the marker "A" opens the scope. */
  function ExampleFilter(): Filter {
    NoFilter.(markerFilter := Some("A"))
  }

  /** The scope facts of the example. */
  lemma ExampleScopes(dp: DrawParams, push: FlagMask, draw: FlagMask, f: Filter)
    requires forall g :: Has(push, g) <==> g == PushMarker
    requires forall g :: Has(draw, g) <==> g == Drawcall
    requires f.markerFilter == Some("A") && f.excludeMarkers.None? && f.flagsFilter.None?
    requires f.eventIdMin.None? && f.eventIdMax.None?
    ensures IsMarker(ExampleOuter(dp, push, draw)) && IsMarker(ExampleInner(dp, push, draw))
    ensures !IsMarker(ExampleLeaf(dp, draw))
    ensures !OpensScope(f, ExampleOuter(dp, push, draw)) && OpensScope(f, ExampleInner(dp, push, draw))
  {
    assert Has(push, PushMarker) && !Has(draw, PushMarker) && !Has(draw, PopMarker) && !Has(draw, SetMarker);
    ExampleNames();
  }

  /** The marker filter `"A"` matches the inner marker's name only. */
  lemma ExampleNames()
    ensures !Contains("Frame", "A") && Contains("A", "A")
  {
    FirstCharAbsent("Frame", "A");
    assert IsPrefix("A", "A");
  }

  /** In hierarchical mode the outer marker is out of scope, so nothing is
      emitted. */
  lemma NestedMatchHierarchical(dp: DrawParams, push: FlagMask, draw: FlagMask)
    requires forall g :: Has(push, g) <==> g == PushMarker
    requires forall g :: Has(draw, g) <==> g == Drawcall
    ensures SerializeActions([ExampleOuter(dp, push, draw)], true, ExampleFilter(), false) == []
  {
    var f := ExampleFilter();
    var outer := ExampleOuter(dp, push, draw);
    ExampleScopes(dp, push, draw, f);
    SerializeSingle(outer, true, f, false);
    assert SerializeAction(outer, true, f, false) == [];
  }

  /** With `only_actions` both markers are spliced out and the draw, inside
      the scope the inner marker opens, is kept. */
  lemma NestedMatchFlattened(dp: DrawParams, push: FlagMask, draw: FlagMask)
    requires forall g :: Has(push, g) <==> g == PushMarker
    requires forall g :: Has(draw, g) <==> g == Drawcall
    ensures SerializeActions([ExampleOuter(dp, push, draw)], true, ExampleFilter().(onlyActions := true), false)
         == [HeadOf(ExampleLeaf(dp, draw))]
  {
    var fo := ExampleFilter().(onlyActions := true);
    var leaf := ExampleLeaf(dp, draw);
    var inner := ExampleInner(dp, push, draw);
    var outer := ExampleOuter(dp, push, draw);
    ExampleScopes(dp, push, draw, fo);
    SerializeSingle(leaf, true, fo, true);
    SerializeSingle(inner, true, fo, false);
    SerializeSingle(outer, true, fo, false);
    assert SerializeAction(leaf, true, fo, true) == [HeadOf(leaf)];
    assert SerializeAction(inner, true, fo, false) == [HeadOf(leaf)];
  }

  /** The marker filter can make `only_actions` keep more than the
      hierarchical mode shows: a matching Push marker nested inside a
      non-matching one is lost in hierarchical mode, because the outer
      marker fails the scope gate, while `only_actions` splices the outer
      marker out and keeps the draw. */
  lemma NestedMatchOnlySurvivesFlattening(dp: DrawParams, push: FlagMask, draw: FlagMask)
    requires forall g :: Has(push, g) <==> g == PushMarker
    requires forall g :: Has(draw, g) <==> g == Drawcall
    ensures
      var outer := ExampleOuter(dp, push, draw);
      var f := ExampleFilter();
      && SerializeActions([outer], true, f, false) == []
      && SerializeActions([outer], true, f.(onlyActions := true), false) == [HeadOf(ExampleLeaf(dp, draw))]
      && SerializeActions([outer], true, f, false) != SerializeActions([outer], true, f.(onlyActions := true), false)
  {
    NestedMatchHierarchical(dp, push, draw);
    NestedMatchFlattened(dp, push, draw);
  }
}

=== FILE: filter_guarantees.dfy ===
/** What each filter guarantees about the dictionaries `serialize_actions`
    emits, at every depth of the output. */
module FilterGuarantees {
  import opened RenderDoc
  import opened Text
  import opened Helpers
  import opened ActionFilter
  import opened FilterProvenance

  /** Every emitted dictionary that is not a marker lies in the event-id
      range, for whichever bounds are given, and, when a category filter is
      given, lists one of the wanted categories. */
  lemma EmittedLeavesPassFilters(actions: seq<Action>, includeChildren: bool, f: Filter, inScope: bool)
    ensures forall it :: it in Nodes(SerializeActions(actions, includeChildren, f, inScope)) && !IsMarkerItem(it) ==>
              && InIdRange(f, it.eventId)
              && (FlagsFilterOn(f) ==> SharesName(it.flags, f.flagsFilter.value))
  {
    forall it | it in Nodes(SerializeActions(actions, includeChildren, f, inScope)) && !IsMarkerItem(it)
      ensures InIdRange(f, it.eventId)
      ensures FlagsFilterOn(f) ==> SharesName(it.flags, f.flagsFilter.value)
    {
      EmittedFrom(actions, includeChildren, f, inScope, it);
      var v :| v in Visit(actions, includeChildren, f, inScope) && Admissible(f, v) && it == HeadOf(v.node);
      MarkerItemIffMarker(v.node, []);
    }
  }

  /** With `only_actions`, no Push, Set or Pop marker appears at any depth. */
  lemma OnlyActionsEmitsNoMarkers(actions: seq<Action>, includeChildren: bool, f: Filter, inScope: bool)
    requires f.onlyActions
    ensures forall it :: it in Nodes(SerializeActions(actions, includeChildren, f, inScope)) ==> !IsMarkerItem(it)
  {
    forall it | it in Nodes(SerializeActions(actions, includeChildren, f, inScope))
      ensures !IsMarkerItem(it)
    {
      EmittedFrom(actions, includeChildren, f, inScope, it);
      var v :| v in Visit(actions, includeChildren, f, inScope) && Admissible(f, v) && it == HeadOf(v.node);
      MarkerItemIffMarker(v.node, []);
    }
  }

  /** An action together with all its descendants, in pre-order. */
  function Subtree(b: Action): seq<Action> {
    [b] + FlattenActions(b.children)
  }

  /** Some action of `pool` is a Push marker matching the marker filter and
      has `x` in its subtree (possibly `x` itself). */
  predicate HasOpenerIn(f: Filter, pool: seq<Action>, x: Action) {
    exists b :: b in pool && OpensScope(f, b) && x in Subtree(b)
  }

  lemma OpenerInLargerPool(f: Filter, pool: seq<Action>, larger: seq<Action>, x: Action)
    requires HasOpenerIn(f, pool, x)
    requires forall y :: y in pool ==> y in larger
    ensures HasOpenerIn(f, larger, x)
  {
    var b :| b in pool && OpensScope(f, b) && x in Subtree(b);
    assert b in larger;
  }

  /** Everything the filter visits is an action of the forest. */
  lemma {:induction false} VisitWithin(actions: seq<Action>, includeChildren: bool, f: Filter, inScope: bool)
    ensures forall v :: v in Visit(actions, includeChildren, f, inScope) ==> v.node in FlattenActions(actions)
    decreases actions, 1
  {
    if |actions| > 0 {
      VisitNodeWithin(actions[0], includeChildren, f, inScope);
      VisitWithin(actions[1..], includeChildren, f, inScope);
      assert FlattenActions(actions) == Subtree(actions[0]) + FlattenActions(actions[1..]);
    }
  }

  lemma {:induction false} VisitChildrenWithin(a: Action, includeChildren: bool, f: Filter, inScope: bool)
    ensures forall v :: v in VisitChildren(a, includeChildren, f, inScope) ==> v.node in FlattenActions(a.children)
    decreases a, 1
  {
    if includeChildren {
      VisitWithin(a.children, includeChildren, f, inScope);
    }
  }

  lemma {:induction false} VisitNodeWithin(a: Action, includeChildren: bool, f: Filter, inScope: bool)
    ensures forall v :: v in VisitNode(a, includeChildren, f, inScope) ==> v.node in Subtree(a)
    decreases a, 2
  {
    if !Excluded(f, a) {
      VisitChildrenWithin(a, includeChildren, f, ScopeAfter(f, a, inScope));
    }
  }

  /** Starting outside any scope, every visited action whose scope flag is
      set lies in the subtree of a matching Push marker. */
  lemma {:induction false} ScopeHasOpener(actions: seq<Action>, includeChildren: bool, f: Filter)
    ensures forall v :: v in Visit(actions, includeChildren, f, false) && v.scope ==>
              HasOpenerIn(f, FlattenActions(actions), v.node)
    decreases actions, 1
  {
    if |actions| > 0 {
      var flat := FlattenActions(actions);
      var first := VisitNode(actions[0], includeChildren, f, false);
      var rest := Visit(actions[1..], includeChildren, f, false);
      ScopeHasOpenerNode(actions[0], includeChildren, f);
      ScopeHasOpener(actions[1..], includeChildren, f);
      assert flat == Subtree(actions[0]) + FlattenActions(actions[1..]);
      forall v: Visited | v in first + rest && v.scope
        ensures HasOpenerIn(f, flat, v.node)
      {
        if v in first {
          OpenerInLargerPool(f, Subtree(actions[0]), flat, v.node);
        } else {
          OpenerInLargerPool(f, FlattenActions(actions[1..]), flat, v.node);
        }
      }
    }
  }

  lemma {:induction false} ScopeHasOpenerChildren(a: Action, includeChildren: bool, f: Filter)
    ensures forall v :: v in VisitChildren(a, includeChildren, f, false) && v.scope ==>
              HasOpenerIn(f, FlattenActions(a.children), v.node)
    decreases a, 1
  {
    if includeChildren {
      ScopeHasOpener(a.children, includeChildren, f);
    }
  }

  lemma {:induction false} ScopeHasOpenerNode(a: Action, includeChildren: bool, f: Filter)
    ensures forall v :: v in VisitNode(a, includeChildren, f, false) && v.scope ==>
              HasOpenerIn(f, Subtree(a), v.node)
    decreases a, 2
  {
    if !Excluded(f, a) {
      var scope := ScopeAfter(f, a, false);
      var below := VisitChildren(a, includeChildren, f, scope);
      assert VisitNode(a, includeChildren, f, false) == [Visited(a, scope)] + below;
      assert a in Subtree(a);
      if OpensScope(f, a) {
        VisitChildrenWithin(a, includeChildren, f, scope);
      } else {
        ScopeHasOpenerChildren(a, includeChildren, f);
        forall v | v in below && v.scope
          ensures HasOpenerIn(f, Subtree(a), v.node)
        {
          OpenerInLargerPool(f, FlattenActions(a.children), Subtree(a), v.node);
        }
      }
    }
  }

  /** With a marker filter and no enclosing scope, every dictionary emitted
      at any depth is the projection of an action that is, or descends
      from, a Push marker whose name contains the filter. */
  lemma EmittedUnderMatchingMarker(actions: seq<Action>, includeChildren: bool, f: Filter)
    requires MarkerFilterOn(f)
    ensures forall it :: it in Nodes(SerializeActions(actions, includeChildren, f, false)) ==>
              exists a :: HasOpenerIn(f, FlattenActions(actions), a) && it == HeadOf(a)
  {
    ScopeHasOpener(actions, includeChildren, f);
    forall it | it in Nodes(SerializeActions(actions, includeChildren, f, false))
      ensures exists a :: HasOpenerIn(f, FlattenActions(actions), a) && it == HeadOf(a)
    {
      EmittedFrom(actions, includeChildren, f, false, it);
      var v :| v in Visit(actions, includeChildren, f, false) && Admissible(f, v) && it == HeadOf(v.node);
      assert HasOpenerIn(f, FlattenActions(actions), v.node);
    }
  }

  /** With a marker filter and markers kept, every top-level dictionary is a
      Push marker whose name contains the filter: scope is only opened by
      such a marker, so nothing else passes the scope gate at the top. */
  lemma {:induction false} RootsOpenScope(actions: seq<Action>, includeChildren: bool, f: Filter)
    requires MarkerFilterOn(f) && !f.onlyActions
    ensures forall i :: 0 <= i < |SerializeActions(actions, includeChildren, f, false)| ==>
              var it := SerializeActions(actions, includeChildren, f, false)[i];
              "PushMarker" in it.flags && Contains(it.name, f.markerFilter.value)
    decreases actions
  {
    if |actions| > 0 {
      var a := actions[0];
      RootsOpenScope(actions[1..], includeChildren, f);
      if SerializeAction(a, includeChildren, f, false) != [] {
        assert OpensScope(f, a);
        NameListedIffSet(a.flags, PushMarker);
      }
    }
  }

  /** Every `children` entry at any depth holds a non-empty list, and every
      marker dictionary has one. */
  predicate Shaped(items: seq<Item>)
    decreases items, 1
  {
    forall i :: 0 <= i < |items| ==> ItemShaped(items[i])
  }

  predicate ItemShaped(it: Item)
    decreases it, 0
  {
    (IsMarkerItem(it) ==> it.children.Children?) && ChildrenShaped(it.children)
  }

  predicate ChildrenShaped(children: ChildList)
    decreases children
  {
    match children
    case NoChildren => true
    case Children(kids) => |kids| > 0 && Shaped(kids)
  }

  lemma ShapedConcat(xs: seq<Item>, ys: seq<Item>)
    requires Shaped(xs) && Shaped(ys)
    ensures Shaped(xs + ys)
  {
    forall i | 0 <= i < |xs + ys| ensures ItemShaped((xs + ys)[i]) {
      if i < |xs| {
        assert (xs + ys)[i] == xs[i];
      } else {
        assert (xs + ys)[i] == ys[i - |xs|];
      }
    }
  }

  /** A childless marker is never emitted, at any depth, whatever the
      filters. */
  lemma {:induction false} MarkersKeepChildren(actions: seq<Action>, includeChildren: bool, f: Filter, inScope: bool)
    ensures Shaped(SerializeActions(actions, includeChildren, f, inScope))
    decreases actions, 1
  {
    if |actions| > 0 {
      MarkersKeepChildrenNode(actions[0], includeChildren, f, inScope);
      MarkersKeepChildren(actions[1..], includeChildren, f, inScope);
      ShapedConcat(SerializeAction(actions[0], includeChildren, f, inScope),
                   SerializeActions(actions[1..], includeChildren, f, inScope));
    }
  }

  lemma {:induction false} MarkersKeepChildrenOf(a: Action, includeChildren: bool, f: Filter, inScope: bool)
    ensures Shaped(SerializeChildren(a, includeChildren, f, inScope))
    decreases a, 1
  {
    if includeChildren && |a.children| > 0 {
      MarkersKeepChildren(a.children, includeChildren, f, inScope);
    }
  }

  lemma {:induction false} MarkersKeepChildrenNode(a: Action, includeChildren: bool, f: Filter, inScope: bool)
    ensures Shaped(SerializeAction(a, includeChildren, f, inScope))
    decreases a, 2
  {
    if !Excluded(f, a) {
      var scope := ScopeAfter(f, a, inScope);
      var kids := SerializeChildren(a, includeChildren, f, scope);
      MarkersKeepChildrenOf(a, includeChildren, f, scope);
      var out := SerializeAction(a, includeChildren, f, inScope);
      if !(f.onlyActions && IsMarker(a)) && out != [] {
        var it := Project(a, kids);
        assert out == [it];
        MarkerItemIffMarker(a, kids);
        if IsMarker(a) {
          assert |kids| > 0;
          assert it.children == Children(kids);
        }
        assert ChildrenShaped(it.children);
        assert ItemShaped(it);
      }
    }
  }

  /** Without children requested, the output is a flat list of non-marker
      dictionaries. */
  lemma NoChildrenNoMarkers(actions: seq<Action>, f: Filter, inScope: bool)
    ensures forall i :: 0 <= i < |SerializeActions(actions, false, f, inScope)| ==>
              var it := SerializeActions(actions, false, f, inScope)[i];
              it.children.NoChildren? && !IsMarkerItem(it)
  {
    MarkersKeepChildren(actions, false, f, inScope);
    var out := SerializeActions(actions, false, f, inScope);
    forall i | 0 <= i < |out| ensures out[i].children.NoChildren? && !IsMarkerItem(out[i]) {
      assert ItemShaped(out[i]);
    }
  }

  /** Both event-id bounds given, with the lower above the upper: nothing
      is emitted, since markers need an emitted child. */
  lemma {:induction false} EmptyRangeEmitsNothing(actions: seq<Action>, includeChildren: bool, f: Filter, inScope: bool)
    requires f.eventIdMin.Some? && f.eventIdMax.Some? && f.eventIdMin.value > f.eventIdMax.value
    ensures SerializeActions(actions, includeChildren, f, inScope) == []
    decreases actions, 1
  {
    if |actions| > 0 {
      EmptyRangeNode(actions[0], includeChildren, f, inScope);
      EmptyRangeEmitsNothing(actions[1..], includeChildren, f, inScope);
    }
  }

  lemma {:induction false} EmptyRangeChildren(a: Action, includeChildren: bool, f: Filter, inScope: bool)
    requires f.eventIdMin.Some? && f.eventIdMax.Some? && f.eventIdMin.value > f.eventIdMax.value
    ensures SerializeChildren(a, includeChildren, f, inScope) == []
    decreases a, 1
  {
    if includeChildren && |a.children| > 0 {
      EmptyRangeEmitsNothing(a.children, includeChildren, f, inScope);
    }
  }

  lemma {:induction false} EmptyRangeNode(a: Action, includeChildren: bool, f: Filter, inScope: bool)
    requires f.eventIdMin.Some? && f.eventIdMax.Some? && f.eventIdMin.value > f.eventIdMax.value
    ensures SerializeAction(a, includeChildren, f, inScope) == []
    decreases a, 2
  {
    EmptyRangeChildren(a, includeChildren, f, ScopeAfter(f, a, inScope));
  }

  /** The dictionaries of `items` that are not markers, in order. */
  function Leaves(items: seq<Item>): seq<Item> {
    if |items| == 0 then []
    else (if IsMarkerItem(items[0]) then [] else [items[0]]) + Leaves(items[1..])
  }

  /** The heads of the actions of `actions` that are not markers, in order. */
  function LeafHeads(actions: seq<Action>): seq<Item> {
    if |actions| == 0 then []
    else (if IsMarker(actions[0]) then [] else [HeadOf(actions[0])]) + LeafHeads(actions[1..])
  }

  lemma {:induction false} LeavesConcat(xs: seq<Item>, ys: seq<Item>)
    ensures Leaves(xs + ys) == Leaves(xs) + Leaves(ys)
    decreases xs
  {
    if |xs| == 0 {
      assert xs + ys == ys;
    } else {
      assert (xs + ys)[0] == xs[0];
      assert (xs + ys)[1..] == xs[1..] + ys;
      LeavesConcat(xs[1..], ys);
    }
  }

  lemma {:induction false} LeafHeadsConcat(xs: seq<Action>, ys: seq<Action>)
    ensures LeafHeads(xs + ys) == LeafHeads(xs) + LeafHeads(ys)
    decreases xs
  {
    if |xs| == 0 {
      assert xs + ys == ys;
    } else {
      assert (xs + ys)[0] == xs[0];
      assert (xs + ys)[1..] == xs[1..] + ys;
      LeafHeadsConcat(xs[1..], ys);
    }
  }

  /** Without filters and with children requested, every non-marker action
      of the forest is emitted exactly once, and in pre-order: the
      non-marker dictionaries of the output, at every depth, are exactly the
      projections of the non-marker actions of the flattened forest. */
  lemma {:induction false} NoFilterKeepsEveryLeaf(actions: seq<Action>, inScope: bool)
    ensures Leaves(Nodes(SerializeActions(actions, true, NoFilter, inScope))) == LeafHeads(FlattenActions(actions))
    decreases actions, 1
  {
    if |actions| > 0 {
      var first := SerializeAction(actions[0], true, NoFilter, inScope);
      var rest := SerializeActions(actions[1..], true, NoFilter, inScope);
      NoFilterKeepsEveryLeafNode(actions[0], inScope);
      NoFilterKeepsEveryLeaf(actions[1..], inScope);
      NodesConcat(first, rest);
      LeavesConcat(Nodes(first), Nodes(rest));
      assert FlattenActions(actions) == Subtree(actions[0]) + FlattenActions(actions[1..]);
      LeafHeadsConcat(Subtree(actions[0]), FlattenActions(actions[1..]));
    }
  }

  lemma {:induction false} NoFilterKeepsEveryLeafOf(a: Action, inScope: bool)
    ensures Leaves(Nodes(SerializeChildren(a, true, NoFilter, inScope))) == LeafHeads(FlattenActions(a.children))
    decreases a, 1
  {
    if |a.children| > 0 {
      NoFilterKeepsEveryLeaf(a.children, inScope);
    }
  }

  lemma {:induction false} NoFilterKeepsEveryLeafNode(a: Action, inScope: bool)
    ensures Leaves(Nodes(SerializeAction(a, true, NoFilter, inScope))) == LeafHeads(Subtree(a))
    decreases a, 2
  {
    var kids := SerializeChildren(a, true, NoFilter, inScope);
    NoFilterAction(a, inScope);
    NoFilterKeepsEveryLeafOf(a, inScope);
    LeafHeadsConcat([a], FlattenActions(a.children));
    if IsMarker(a) && kids == [] {
      assert LeafHeads([a]) == [];
    } else {
      LeavesOfProjection(a, kids);
    }
  }

  /** Without filters an action is emitted, with its children inheriting
      the caller's scope, unless it is a marker with no emitted children. */
  lemma NoFilterAction(a: Action, inScope: bool)
    ensures
      var kids := SerializeChildren(a, true, NoFilter, inScope);
      SerializeAction(a, true, NoFilter, inScope) == if IsMarker(a) && kids == [] then [] else [Project(a, kids)]
  {
    assert ScopeAfter(NoFilter, a, inScope) == inScope;
    assert !Excluded(NoFilter, a) && PassesFlags(NoFilter, a);
    assert InRange(NoFilter, a) || IsMarker(a);
    assert PassesScope(NoFilter, inScope);
  }

  /** The non-marker nodes of a projection: its own head unless it is a
      marker, then those of its children. */
  lemma LeavesOfProjection(a: Action, kids: seq<Item>)
    ensures Leaves(Nodes([Project(a, kids)])) == LeafHeads([a]) + Leaves(Nodes(kids))
  {
    NodesProject(a, kids);
    LeavesConcat([HeadOf(a)], Nodes(kids));
    MarkerItemIffMarker(a, []);
    assert Leaves([HeadOf(a)]) == if IsMarker(a) then [] else [HeadOf(a)];
    assert LeafHeads([a]) == if IsMarker(a) then [] else [HeadOf(a)];
  }
}

=== FILE: filter_provenance.dfy ===
/** Where the filter's output comes from. Every dictionary the filter emits,
    at any depth, is the projection of an action the filter visited and
    that passed the checks that apply to it; the emitted dictionaries keep
    the pre-order of those actions. The per-filter guarantees (event-id
    range, category filter, marker flattening, marker scope) follow from
    this one fact. */
module FilterProvenance {
  import opened RenderDoc
  import opened Sequences
  import opened FlagCodec
  import opened ActionFilter

  /** A dictionary's own entries, without its children. */
  function Head(it: Item): Item {
    it.(children := NoChildren)
  }

  /** The dictionary an action yields, without children. */
  function HeadOf(a: Action): Item {
    Project(a, [])
  }

  /** A dictionary whose category list names a Push, Set or Pop marker. */
  predicate IsMarkerItem(it: Item) {
    "PushMarker" in it.flags || "SetMarker" in it.flags || "PopMarker" in it.flags
  }

  /** The category list of a projection shows whether the action is a
      marker. */
  lemma MarkerItemIffMarker(a: Action, kids: seq<Item>)
    ensures IsMarkerItem(Project(a, kids)) <==> IsMarker(a)
  {
    var names := SerializeFlags(a.flags);
    assert Project(a, kids).flags == names;
    NameListedIffSet(a.flags, PushMarker);
    NameListedIffSet(a.flags, SetMarker);
    NameListedIffSet(a.flags, PopMarker);
  }

  lemma NameListedIffSet(mask: FlagMask, g: ActionFlag)
    ensures FlagName(g) in SerializeFlags(mask) <==> Has(mask, g)
  {
    SerializeFlagsSpec(mask);
  }

  /** Every dictionary of `items` at any depth, in pre-order, each without
      its children. */
  function Nodes(items: seq<Item>): seq<Item>
    decreases items, 1
  {
    if |items| == 0 then [] else NodesOf(items[0]) + Nodes(items[1..])
  }

  function NodesOf(it: Item): seq<Item>
    decreases it, 1
  {
    [Head(it)] + KidNodes(it.children)
  }

  function KidNodes(c: ChildList): seq<Item>
    decreases c, 0
  {
    match c
    case NoChildren => []
    case Children(kids) => Nodes(kids)
  }

  lemma {:induction false} NodesConcat(xs: seq<Item>, ys: seq<Item>)
    ensures Nodes(xs + ys) == Nodes(xs) + Nodes(ys)
    decreases xs
  {
    if |xs| == 0 {
      assert xs + ys == ys;
    } else {
      assert (xs + ys)[0] == xs[0];
      assert (xs + ys)[1..] == xs[1..] + ys;
      NodesConcat(xs[1..], ys);
    }
  }

  /** The nodes of one projection: its head, then the nodes of its
      filtered children. */
  lemma NodesProject(a: Action, kids: seq<Item>)
    ensures Nodes([Project(a, kids)]) == [HeadOf(a)] + Nodes(kids)
  {
    assert [Project(a, kids)][1..] == [];
    assert KidNodes(Wrap(kids)) == Nodes(kids);
  }

  /** An action the filter reaches, with the scope flag its children
      inherit. */
  datatype Visited = Visited(node: Action, scope: bool)

  /** The actions the filter reaches, in pre-order: all of them except the
      subtrees of excluded markers, and no children when children are not
      requested. */
  function Visit(actions: seq<Action>, includeChildren: bool, f: Filter, inScope: bool): seq<Visited>
    decreases actions, 1
  {
    if |actions| == 0 then []
    else VisitNode(actions[0], includeChildren, f, inScope) + Visit(actions[1..], includeChildren, f, inScope)
  }

  function VisitChildren(a: Action, includeChildren: bool, f: Filter, inScope: bool): seq<Visited>
    decreases a, 1
  {
    if includeChildren then Visit(a.children, includeChildren, f, inScope) else []
  }

  function VisitNode(a: Action, includeChildren: bool, f: Filter, inScope: bool): seq<Visited>
    decreases a, 2
  {
    if Excluded(f, a) then []
    else
      var scope := ScopeAfter(f, a, inScope);
      [Visited(a, scope)] + VisitChildren(a, includeChildren, f, scope)
  }

  /** The checks that an action's own dictionary needs: the scope gate, and
      then for a marker that markers are not being flattened, for any other
      action the event-id range and the category filter. */
  predicate Admissible(f: Filter, v: Visited) {
    && PassesScope(f, v.scope)
    && if IsMarker(v.node) then !f.onlyActions
       else InRange(f, v.node) && PassesFlags(f, v.node)
  }

  /** The heads of the admissible visited actions, in visiting order. */
  function Candidates(f: Filter, vs: seq<Visited>): seq<Item> {
    if |vs| == 0 then []
    else (if Admissible(f, vs[0]) then [HeadOf(vs[0].node)] else []) + Candidates(f, vs[1..])
  }

  lemma {:induction false} CandidatesConcat(f: Filter, xs: seq<Visited>, ys: seq<Visited>)
    ensures Candidates(f, xs + ys) == Candidates(f, xs) + Candidates(f, ys)
    decreases xs
  {
    if |xs| == 0 {
      assert xs + ys == ys;
    } else {
      assert (xs + ys)[0] == xs[0];
      assert (xs + ys)[1..] == xs[1..] + ys;
      CandidatesConcat(f, xs[1..], ys);
    }
  }

  lemma {:induction false} CandidatesMembers(f: Filter, vs: seq<Visited>, it: Item)
    requires it in Candidates(f, vs)
    ensures exists v :: v in vs && Admissible(f, v) && it == HeadOf(v.node)
    decreases vs
  {
    if it != HeadOf(vs[0].node) || !Admissible(f, vs[0]) {
      CandidatesMembers(f, vs[1..], it);
      var v :| v in vs[1..] && Admissible(f, v) && it == HeadOf(v.node);
      assert v in vs;
    } else {
      assert vs[0] in vs;
    }
  }

  /** The dictionaries the filter emits for a forest, in pre-order, are a
      subsequence of the heads of the admissible actions it visits. */
  lemma {:induction false} ProvenanceForest(actions: seq<Action>, includeChildren: bool, f: Filter, inScope: bool)
    ensures Subseq(Nodes(SerializeActions(actions, includeChildren, f, inScope)),
                   Candidates(f, Visit(actions, includeChildren, f, inScope)))
    decreases actions, 1
  {
    if |actions| > 0 {
      var first := SerializeAction(actions[0], includeChildren, f, inScope);
      var rest := SerializeActions(actions[1..], includeChildren, f, inScope);
      var v1 := VisitNode(actions[0], includeChildren, f, inScope);
      var v2 := Visit(actions[1..], includeChildren, f, inScope);
      ProvenanceNode(actions[0], includeChildren, f, inScope);
      ProvenanceForest(actions[1..], includeChildren, f, inScope);
      NodesConcat(first, rest);
      CandidatesConcat(f, v1, v2);
      SubseqConcat(Nodes(first), Candidates(f, v1), Nodes(rest), Candidates(f, v2));
    }
  }

  lemma {:induction false} ProvenanceChildren(a: Action, includeChildren: bool, f: Filter, inScope: bool)
    ensures Subseq(Nodes(SerializeChildren(a, includeChildren, f, inScope)),
                   Candidates(f, VisitChildren(a, includeChildren, f, inScope)))
    decreases a, 1
  {
    if includeChildren && |a.children| > 0 {
      ProvenanceForest(a.children, includeChildren, f, inScope);
    }
  }

  lemma {:induction false} ProvenanceNode(a: Action, includeChildren: bool, f: Filter, inScope: bool)
    ensures Subseq(Nodes(SerializeAction(a, includeChildren, f, inScope)),
                   Candidates(f, VisitNode(a, includeChildren, f, inScope)))
    decreases a, 2
  {
    if !Excluded(f, a) {
      var scope := ScopeAfter(f, a, inScope);
      var v := Visited(a, scope);
      var below := VisitChildren(a, includeChildren, f, scope);
      var kids := SerializeChildren(a, includeChildren, f, scope);
      ProvenanceChildren(a, includeChildren, f, scope);
      CandidatesConcat(f, [v], below);
      assert VisitNode(a, includeChildren, f, inScope) == [v] + below;
      assert [v][1..] == [];
      if f.onlyActions && IsMarker(a) {
        assert Candidates(f, [v]) == [];
        assert [] + Candidates(f, below) == Candidates(f, below);
      } else if PassesFlags(f, a) {
        var keep :=
          if IsMarker(a) then |kids| > 0 && PassesScope(f, scope)
          else InRange(f, a) && PassesScope(f, scope);
        if keep {
          NodesProject(a, kids);
          assert Admissible(f, v);
          assert Candidates(f, [v]) == [HeadOf(a)];
          SubseqCons(HeadOf(a), Nodes(kids), Candidates(f, below));
        }
      }
    }
  }

  /** Every dictionary emitted at any depth is the head of a visited action
      that passed its own checks. */
  lemma EmittedFrom(actions: seq<Action>, includeChildren: bool, f: Filter, inScope: bool, it: Item)
    requires it in Nodes(SerializeActions(actions, includeChildren, f, inScope))
    ensures exists v :: v in Visit(actions, includeChildren, f, inScope) && Admissible(f, v) && it == HeadOf(v.node)
  {
    ProvenanceForest(actions, includeChildren, f, inScope);
    SubseqMembers(Nodes(SerializeActions(actions, includeChildren, f, inScope)),
                  Candidates(f, Visit(actions, includeChildren, f, inScope)));
    CandidatesMembers(f, Visit(actions, includeChildren, f, inScope), it);
  }
}

=== FILE: flag_codec.dfy ===
/** The flag codec of `Serializers.serialize_flags`: the names of the
    categories set in a bitmask, in a fixed table order. */
module FlagCodec {
  import opened RenderDoc
  import opened Sequences
  import opened Results

  /** The category table, in the order the codec walks it. */
  const FlagOrder: seq<ActionFlag> := [
    Drawcall, Dispatch, Clear, PushMarker, PopMarker, SetMarker, Present,
    Copy, Resolve, GenMips, PassBoundary, Indexed, Instanced, Auto, Indirect,
    ClearColor, ClearDepthStencil, BeginPass, EndPass]

  /** The canonical name of each category. */
  function FlagName(f: ActionFlag): string {
    match f
    case Drawcall => "Drawcall"
    case Dispatch => "Dispatch"
    case Clear => "Clear"
    case PushMarker => "PushMarker"
    case PopMarker => "PopMarker"
    case SetMarker => "SetMarker"
    case Present => "Present"
    case Copy => "Copy"
    case Resolve => "Resolve"
    case GenMips => "GenMips"
    case PassBoundary => "PassBoundary"
    case Indexed => "Indexed"
    case Instanced => "Instanced"
    case Auto => "Auto"
    case Indirect => "Indirect"
    case ClearColor => "ClearColor"
    case ClearDepthStencil => "ClearDepthStencil"
    case BeginPass => "BeginPass"
    case EndPass => "EndPass"
  }

  /** The names of a list of categories, in list order. */
  function Names(fs: seq<ActionFlag>): (ns: seq<string>)
    ensures |ns| == |fs|
    ensures forall i :: 0 <= i < |fs| ==> ns[i] == FlagName(fs[i])
  {
    if |fs| == 0 then [] else [FlagName(fs[0])] + Names(fs[1..])
  }

  /** The table's names, in table order. */
  function TableNames(): seq<string> {
    Names(FlagOrder)
  }

  /** The category a canonical name stands for; names are told apart by
      length first, then spelling. */
  function FlagNamed(s: string): Option<ActionFlag> {
    if |s| == 4 then
      if s == "Copy" then Some(Copy)
      else if s == "Auto" then Some(Auto)
      else None
    else if |s| == 5 then
      if s == "Clear" then Some(Clear)
      else None
    else if |s| == 7 then
      if s == "Present" then Some(Present)
      else if s == "Resolve" then Some(Resolve)
      else if s == "GenMips" then Some(GenMips)
      else if s == "Indexed" then Some(Indexed)
      else if s == "EndPass" then Some(EndPass)
      else None
    else if |s| == 8 then
      if s == "Drawcall" then Some(Drawcall)
      else if s == "Dispatch" then Some(Dispatch)
      else if s == "Indirect" then Some(Indirect)
      else None
    else if |s| == 9 then
      if s == "PopMarker" then Some(PopMarker)
      else if s == "SetMarker" then Some(SetMarker)
      else if s == "Instanced" then Some(Instanced)
      else if s == "BeginPass" then Some(BeginPass)
      else None
    else if |s| == 10 then
      if s == "PushMarker" then Some(PushMarker)
      else if s == "ClearColor" then Some(ClearColor)
      else None
    else if |s| == 12 then
      if s == "PassBoundary" then Some(PassBoundary)
      else None
    else if |s| == 17 then
      if s == "ClearDepthStencil" then Some(ClearDepthStencil)
      else None
    else None
  }

  /** Every category's name identifies it. */
  lemma FlagNameInverse(f: ActionFlag)
    ensures FlagNamed(FlagName(f)) == Some(f)
  {
  }

  /** Different categories have different names. */
  lemma FlagNameInjective(f: ActionFlag, g: ActionFlag)
    ensures FlagName(f) == FlagName(g) ==> f == g
  {
    FlagNameInverse(f);
    FlagNameInverse(g);
  }

  /** The table lists every category exactly once. */
  lemma FlagOrderComplete(f: ActionFlag)
    ensures f in FlagOrder
  {
    match f
    case Drawcall => assert FlagOrder[0] == f;
    case Dispatch => assert FlagOrder[1] == f;
    case Clear => assert FlagOrder[2] == f;
    case PushMarker => assert FlagOrder[3] == f;
    case PopMarker => assert FlagOrder[4] == f;
    case SetMarker => assert FlagOrder[5] == f;
    case Present => assert FlagOrder[6] == f;
    case Copy => assert FlagOrder[7] == f;
    case Resolve => assert FlagOrder[8] == f;
    case GenMips => assert FlagOrder[9] == f;
    case PassBoundary => assert FlagOrder[10] == f;
    case Indexed => assert FlagOrder[11] == f;
    case Instanced => assert FlagOrder[12] == f;
    case Auto => assert FlagOrder[13] == f;
    case Indirect => assert FlagOrder[14] == f;
    case ClearColor => assert FlagOrder[15] == f;
    case ClearDepthStencil => assert FlagOrder[16] == f;
    case BeginPass => assert FlagOrder[17] == f;
    case EndPass => assert FlagOrder[18] == f;
  }

  lemma FlagOrderDistinct()
    ensures Distinct(FlagOrder)
  {
    forall i, j | 0 <= i < j < |FlagOrder| ensures FlagOrder[i] != FlagOrder[j] {
      assert Bit(FlagOrder[i]) == i && Bit(FlagOrder[j]) == j;
    }
  }

  /** The names of the categories of `order` that are set in `mask`, in the
      order of `order` (one pass of the `for flag, name in flag_map` loop). */
  function Collect(order: seq<ActionFlag>, mask: FlagMask): seq<string> {
    if |order| == 0 then []
    else (if Has(mask, order[0]) then [FlagName(order[0])] else []) + Collect(order[1..], mask)
  }

  /** The walk keeps table order. */
  lemma {:induction false} CollectInOrder(order: seq<ActionFlag>, mask: FlagMask)
    ensures Subseq(Collect(order, mask), Names(order))
  {
    if |order| > 0 {
      var rest := Collect(order[1..], mask);
      CollectInOrder(order[1..], mask);
      assert Names(order) == [FlagName(order[0])] + Names(order[1..]);
      if Has(mask, order[0]) {
        assert Collect(order, mask) == [FlagName(order[0])] + rest;
        assert Collect(order, mask)[1..] == rest;
      } else {
        assert Collect(order, mask) == rest;
        SubseqPrepend(rest, [FlagName(order[0])], Names(order[1..]));
      }
    }
  }

  /** The walk lists a category's name exactly when the category is in the
      table and set in the mask, and lists no other name. */
  lemma {:induction false} CollectMembers(order: seq<ActionFlag>, mask: FlagMask)
    ensures forall f :: FlagName(f) in Collect(order, mask) <==> f in order && Has(mask, f)
    ensures forall n :: n in Collect(order, mask) ==> exists f :: f in order && n == FlagName(f) && Has(mask, f)
  {
    if |order| > 0 {
      var f := order[0];
      CollectMembers(order[1..], mask);
      forall g ensures FlagName(g) == FlagName(f) ==> g == f {
        FlagNameInjective(g, f);
      }
      assert forall g :: g in order <==> g == f || g in order[1..];
    }
  }

  /** A table without repeats yields names without repeats. */
  lemma {:induction false} CollectDistinct(order: seq<ActionFlag>, mask: FlagMask)
    requires Distinct(order)
    ensures Distinct(Collect(order, mask))
  {
    if |order| > 0 {
      var f := order[0];
      CollectDistinct(order[1..], mask);
      if Has(mask, f) {
        CollectMembers(order[1..], mask);
        assert f !in order[1..];
        assert FlagName(f) !in Collect(order[1..], mask);
      }
    }
  }

  /** `serialize_flags`: walks the table and lists the name of every
      category whose bit is set in `mask`. */
  function SerializeFlags(mask: FlagMask): seq<string> {
    Collect(FlagOrder, mask)
  }

  /** The codec lists names in table order, each at most once. */
  lemma SerializeFlagsInTableOrder(mask: FlagMask)
    ensures Subseq(SerializeFlags(mask), TableNames())
    ensures Distinct(SerializeFlags(mask))
  {
    FlagOrderDistinct();
    CollectInOrder(FlagOrder, mask);
    CollectDistinct(FlagOrder, mask);
  }

  /** The codec lists a category's name exactly when its bit is set, and
      every listed name is the name of a set category. */
  lemma SerializeFlagsListsSetBits(mask: FlagMask)
    ensures forall f :: FlagName(f) in SerializeFlags(mask) <==> Has(mask, f)
    ensures forall n :: n in SerializeFlags(mask) ==> exists f :: n == FlagName(f) && Has(mask, f)
  {
    forall f ensures f in FlagOrder { FlagOrderComplete(f); }
    CollectMembers(FlagOrder, mask);
  }

  /** Both halves together. */
  lemma SerializeFlagsSpec(mask: FlagMask)
    ensures Subseq(SerializeFlags(mask), TableNames())
    ensures forall f :: FlagName(f) in SerializeFlags(mask) <==> Has(mask, f)
    ensures forall n :: n in SerializeFlags(mask) ==> exists f :: n == FlagName(f) && Has(mask, f)
    ensures Distinct(SerializeFlags(mask))
  {
    SerializeFlagsInTableOrder(mask);
    SerializeFlagsListsSetBits(mask);
  }

  /** The bits some category occupies. */
  function KnownBits(): FlagMask {
    set f | f in FlagOrder :: Bit(f)
  }

  /** The walk only looks at the categories' own bits. */
  lemma {:induction false} CollectIgnoresUnknownBits(order: seq<ActionFlag>, mask: FlagMask)
    ensures Collect(order, mask) == Collect(order, mask * KnownBits())
  {
    if |order| > 0 {
      FlagOrderComplete(order[0]);
      CollectIgnoresUnknownBits(order[1..], mask);
    }
  }

  /** Unknown bits are ignored: only the known part of the mask matters. */
  lemma UnknownBitsIgnored(mask: FlagMask)
    ensures SerializeFlags(mask) == SerializeFlags(mask * KnownBits())
  {
    CollectIgnoresUnknownBits(FlagOrder, mask);
  }

  /** The list is empty exactly when no category is set; in particular a
      mask of `0`, or one with only unknown bits, has no names. */
  lemma EmptyIffNoCategory(mask: FlagMask)
    ensures SerializeFlags(mask) == [] <==> forall f :: !Has(mask, f)
  {
    SerializeFlagsSpec(mask);
    var names := SerializeFlags(mask);
    if names != [] {
      assert names[0] in names;
    }
  }

  /** An indexed, instanced draw lists its categories in table order,
      whatever order the mask was built in. */
  lemma IndexedInstancedDraw(mask: FlagMask)
    requires forall f :: Has(mask, f) <==> f == Instanced || f == Indexed || f == Drawcall
    ensures SerializeFlags(mask) == ["Drawcall", "Indexed", "Instanced"]
  {
    var order := FlagOrder;
    CollectSplit(order, 13, mask);
    CollectSplit(order[..13], 11, mask);
    assert order[..13][..11] == order[..11];
    assert order[..13][11..] == order[11..13];
    DrawFront(mask);
    DrawPair(mask);
    DrawTail(mask);
  }

  /** The three parts of the table for `IndexedInstancedDraw`. */
  lemma DrawFront(mask: FlagMask)
    requires forall f :: Has(mask, f) <==> f == Instanced || f == Indexed || f == Drawcall
    ensures Collect(FlagOrder[..11], mask) == ["Drawcall"]
  {
    var front := FlagOrder[..11];
    assert front == [Drawcall, Dispatch, Clear, PushMarker, PopMarker, SetMarker,
                     Present, Copy, Resolve, GenMips, PassBoundary];
    assert front[1..][0] == Dispatch;
    CollectNone(front[1..], mask);
  }

  lemma DrawPair(mask: FlagMask)
    requires forall f :: Has(mask, f) <==> f == Instanced || f == Indexed || f == Drawcall
    ensures Collect(FlagOrder[11..13], mask) == ["Indexed", "Instanced"]
  {
    var pair := FlagOrder[11..13];
    assert pair == [Indexed, Instanced];
    assert pair[1..] == [Instanced];
    assert Collect([Instanced], mask) == [FlagName(Instanced)] + Collect([], mask);
  }

  lemma DrawTail(mask: FlagMask)
    requires forall f :: Has(mask, f) <==> f == Instanced || f == Indexed || f == Drawcall
    ensures Collect(FlagOrder[13..], mask) == []
  {
    var tail := FlagOrder[13..];
    assert tail == [Auto, Indirect, ClearColor, ClearDepthStencil, BeginPass, EndPass];
    CollectNone(tail, mask);
  }

  /** A table none of whose categories is set yields no names. */
  lemma {:induction false} CollectNone(order: seq<ActionFlag>, mask: FlagMask)
    requires forall i :: 0 <= i < |order| ==> !Has(mask, order[i])
    ensures Collect(order, mask) == []
  {
    if |order| > 0 {
      CollectNone(order[1..], mask);
    }
  }

  /** Walking a table in two parts walks it whole. */
  lemma {:induction false} CollectSplit(order: seq<ActionFlag>, k: nat, mask: FlagMask)
    requires k <= |order|
    ensures Collect(order, mask) == Collect(order[..k], mask) + Collect(order[k..], mask)
    decreases k
  {
    if k > 0 {
      CollectSplit(order[1..], k - 1, mask);
      assert order[..k][1..] == order[1..][..k - 1];
      assert order[1..][k - 1..] == order[k..];
    }
  }
}

=== FILE: helpers.dfy ===
/** The tree helpers of `Helpers`: pre-order flattening of an action forest,
    recursive descendant counting, and the list of shader stages. */
module Helpers {
  import opened RenderDoc

  /** `flatten_actions`: every action followed by the flattening of its
      children, roots in order. */
  function FlattenActions(actions: seq<Action>): seq<Action>
    decreases actions
  {
    if |actions| == 0 then []
    else [actions[0]] + FlattenActions(actions[0].children) + FlattenActions(actions[1..])
  }

  /** `count_children`: the number of descendants of `a`, each child
      counting one plus its own descendants. */
  function CountChildren(a: Action): (n: nat)
    ensures n >= |a.children|
    decreases a, 1
  {
    CountForest(a.children)
  }

  /** The sum, over `actions`, of one plus the descendant count. */
  function CountForest(actions: seq<Action>): (n: nat)
    ensures n >= |actions|
    decreases actions, 0
  {
    if |actions| == 0 then 0
    else 1 + CountChildren(actions[0]) + CountForest(actions[1..])
  }

  /** Flattening distributes over concatenation of forests. */
  lemma {:induction false} FlattenConcat(xs: seq<Action>, ys: seq<Action>)
    ensures FlattenActions(xs + ys) == FlattenActions(xs) + FlattenActions(ys)
    decreases xs
  {
    if |xs| == 0 {
      assert xs + ys == ys;
    } else {
      assert (xs + ys)[0] == xs[0];
      assert (xs + ys)[1..] == xs[1..] + ys;
      FlattenConcat(xs[1..], ys);
    }
  }

  /** The flattening of a forest lists one entry per root plus one per
      descendant of each root. */
  lemma {:induction false} FlattenLength(actions: seq<Action>)
    ensures |FlattenActions(actions)| == CountForest(actions)
    decreases actions
  {
    if |actions| > 0 {
      FlattenLength(actions[0].children);
      FlattenLength(actions[1..]);
    }
  }

  /** A node's descendant count is the length of its children's flattening. */
  lemma CountChildrenIsFlattenLength(a: Action)
    ensures CountChildren(a) == |FlattenActions(a.children)|
  {
    FlattenLength(a.children);
  }

  /** Entry `i` of `flat` is immediately followed by the flattening of its
      children. */
  predicate FollowedByChildren(flat: seq<Action>, i: nat)
    requires i < |flat|
  {
    var sub := FlattenActions(flat[i].children);
    i + 1 + |sub| <= |flat| && flat[i + 1..i + 1 + |sub|] == sub
  }

  /** Pre-order: in the flattening, every entry is immediately followed by
      the flattening of its own children. */
  lemma {:induction false} FlattenIsPreorder(actions: seq<Action>, i: nat)
    requires i < |FlattenActions(actions)|
    ensures FollowedByChildren(FlattenActions(actions), i)
    decreases actions
  {
    var a := actions[0];
    var inner := FlattenActions(a.children);
    var rest := FlattenActions(actions[1..]);
    assert FlattenActions(actions) == [a] + inner + rest;
    if i == 0 {
      assert ([a] + inner + rest)[1..1 + |inner|] == inner;
    } else if i < 1 + |inner| {
      FlattenIsPreorder(a.children, i - 1);
      FollowedInFront([a], inner, rest, i);
    } else {
      FlattenIsPreorder(actions[1..], i - 1 - |inner|);
      FollowedBehind([a] + inner, rest, i);
    }
  }

  /** An entry of the middle part keeps its follower when the parts are
      joined. */
  lemma FollowedInFront(x: seq<Action>, y: seq<Action>, z: seq<Action>, i: nat)
    requires |x| <= i < |x| + |y|
    requires FollowedByChildren(y, i - |x|)
    ensures FollowedByChildren(x + y + z, i)
  {
    var sub := FlattenActions(y[i - |x|].children);
    assert (x + y + z)[i] == y[i - |x|];
    SliceInside(x + y, z, i + 1, i + 1 + |sub|);
    SliceBehind(x, y, i + 1, i + 1 + |sub|);
  }

  /** An entry of the last part keeps its follower when the parts are
      joined. */
  lemma FollowedBehind(x: seq<Action>, y: seq<Action>, i: nat)
    requires |x| <= i < |x| + |y|
    requires FollowedByChildren(y, i - |x|)
    ensures FollowedByChildren(x + y, i)
  {
    var sub := FlattenActions(y[i - |x|].children);
    assert (x + y)[i] == y[i - |x|];
    SliceBehind(x, y, i + 1, i + 1 + |sub|);
  }

  lemma SliceInside<T>(x: seq<T>, y: seq<T>, lo: nat, hi: nat)
    requires lo <= hi <= |x|
    ensures (x + y)[lo..hi] == x[lo..hi]
  {
  }

  lemma SliceBehind<T>(x: seq<T>, y: seq<T>, lo: nat, hi: nat)
    requires |x| <= lo <= hi <= |x| + |y|
    ensures (x + y)[lo..hi] == y[lo - |x|..hi - |x|]
  {
  }

  /** `get_all_shader_stages`: the six stages in pipeline order. */
  function AllShaderStages(): (stages: seq<ShaderStage>)
    ensures |stages| == 6
    ensures forall i, j :: 0 <= i < j < |stages| ==> stages[i] != stages[j]
  {
    [Vertex, Hull, Domain, Geometry, Pixel, Compute]
  }

  /** The list names every stage. */
  lemma AllShaderStagesComplete(s: ShaderStage)
    ensures s in AllShaderStages()
  {
    var stages := AllShaderStages();
    match s
    case Vertex => assert stages[0] == s;
    case Hull => assert stages[1] == s;
    case Domain => assert stages[2] == s;
    case Geometry => assert stages[3] == s;
    case Pixel => assert stages[4] == s;
    case Compute => assert stages[5] == s;
  }
}

=== FILE: numerals.dfy ===
/** Decimal numerals: rendering integers as text and the subset of Python's
    `int(str)` the resource-id parser relies on (an optional sign followed by
    ASCII digits). */
module Numerals {
  import opened Results

  predicate IsDigit(c: char) {
    '0' <= c <= '9'
  }

  predicate AllDigits(s: string) {
    forall i :: 0 <= i < |s| ==> IsDigit(s[i])
  }

  function DigitValue(c: char): nat
    requires IsDigit(c)
  {
    c as int - '0' as int
  }

  function DigitChar(d: nat): (c: char)
    requires d < 10
    ensures IsDigit(c) && DigitValue(c) == d
  {
    ('0' as int + d) as char
  }

  /** The value of a digit string, most significant digit first. */
  function DigitsValue(s: string): nat
    requires AllDigits(s)
    decreases |s|
  {
    if |s| == 0 then 0 else DigitsValue(s[..|s| - 1]) * 10 + DigitValue(s[|s| - 1])
  }

  /** The shortest decimal rendering of `n` (Python's `str(n)`). */
  function NatToString(n: nat): (s: string)
    ensures |s| >= 1 && AllDigits(s)
    ensures s[0] != '0' || n == 0
  {
    if n < 10 then [DigitChar(n)] else NatToString(n / 10) + [DigitChar(n % 10)]
  }

  /** Python's `str(n)` for an integer: a minus sign before negatives. */
  function IntToString(n: int): (s: string)
    ensures |s| >= 1
  {
    if n < 0 then "-" + NatToString(-n) else NatToString(n)
  }

  /** The strings this model accepts as Python integer literals: an optional
      `+` or `-` followed by at least one ASCII digit. */
  predicate IsIntLiteral(s: string) {
    if |s| >= 1 && (s[0] == '+' || s[0] == '-')
    then |s| >= 2 && AllDigits(s[1..])
    else |s| >= 1 && AllDigits(s)
  }

  /** Python's `int(s)`: the value of an integer literal, `None` where
      Python raises `ValueError`. */
  function ParseInt(s: string): (r: Option<int>)
    ensures r.Some? <==> IsIntLiteral(s)
  {
    if |s| >= 1 && s[0] == '-' then
      if |s| >= 2 && AllDigits(s[1..]) then Some(0 - DigitsValue(s[1..]) as int) else None
    else if |s| >= 1 && s[0] == '+' then
      if |s| >= 2 && AllDigits(s[1..]) then Some(DigitsValue(s[1..])) else None
    else if |s| >= 1 && AllDigits(s) then Some(DigitsValue(s))
    else None
  }

  /** Reading back a rendered natural number gives the number. */
  lemma {:induction false} NatToStringRoundTrip(n: nat)
    ensures DigitsValue(NatToString(n)) == n
  {
    if n >= 10 {
      var s := NatToString(n);
      NatToStringRoundTrip(n / 10);
      assert s[..|s| - 1] == NatToString(n / 10);
    }
  }

  /** Reading back a rendered integer gives the integer. */
  lemma IntToStringRoundTrip(n: int)
    ensures ParseInt(IntToString(n)) == Some(n)
  {
    var s := IntToString(n);
    if n < 0 {
      var digits := NatToString(-n);
      assert s[1..] == digits;
      assert s[0] == '-';
      NatToStringRoundTrip(-n);
    } else {
      assert IsDigit(s[0]);
      NatToStringRoundTrip(n);
    }
  }

  /** Rendered integers never contain a colon. */
  lemma IntToStringNoColon(n: int)
    ensures forall i :: 0 <= i < |IntToString(n)| ==> IntToString(n)[i] != ':'
  {
    if n < 0 {
      assert forall i :: 1 <= i < |IntToString(n)| ==> IntToString(n)[i] == NatToString(-n)[i - 1];
    }
  }
}

=== FILE: parsers.dfy ===
/** The string parsers of `Parsers`: case-insensitive shader-stage lookup
    and numeric resource ids written as `Prefix::123` or `123`. */
module Parsers {
  import opened Results
  import opened Text
  import opened Numerals
  import opened RenderDoc
  import opened Helpers

  /** Why a string was rejected (Python raises `ValueError` for both). */
  datatype ParseError =
    | UnknownStage(stage: string)
    | InvalidInteger(text: string)

  /** The key of each stage in the lookup table. */
  function StageKey(st: ShaderStage): string {
    match st
    case Vertex => "vertex"
    case Hull => "hull"
    case Domain => "domain"
    case Geometry => "geometry"
    case Pixel => "pixel"
    case Compute => "compute"
  }

  /** The lookup table `stage_map`. */
  function StageNamed(key: string): Option<ShaderStage> {
    if key == "vertex" then Some(Vertex)
    else if key == "hull" then Some(Hull)
    else if key == "domain" then Some(Domain)
    else if key == "geometry" then Some(Geometry)
    else if key == "pixel" then Some(Pixel)
    else if key == "compute" then Some(Compute)
    else None
  }

  /** The table maps each key to its stage and nothing else to a stage. */
  lemma StageNamedIffKey(key: string, st: ShaderStage)
    ensures StageNamed(key) == Some(st) <==> key == StageKey(st)
  {
  }

  /** `parse_stage`: lower-cases the string and looks it up. */
  function ParseStage(s: string): (r: Result<ShaderStage, ParseError>)
    ensures r.Ok? ==> ToLower(s) == StageKey(r.value)
    ensures r.Err? ==> r.error == UnknownStage(s)
  {
    match StageNamed(ToLower(s))
    case Some(st) => Ok(st)
    case None => Err(UnknownStage(s))
  }

  /** A string is accepted exactly when its lower-case form is one of the
      six keys, and it then names that key's stage. */
  lemma ParseStageIff(s: string, st: ShaderStage)
    ensures ParseStage(s) == Ok(st) <==> ToLower(s) == StageKey(st)
  {
    StageNamedIffKey(ToLower(s), st);
  }

  /** Keys are lower case: lower-casing a key gives the key back. */
  lemma KeyIsLowerCase(st: ShaderStage)
    ensures ToLower(StageKey(st)) == StageKey(st)
  {
    var k := StageKey(st);
    assert forall i :: 0 <= i < |k| ==> 'a' <= k[i] <= 'z';
  }

  /** Lower-casing undoes upper-casing of lower-case letters. */
  lemma LowerOfUpper(k: string)
    requires forall i :: 0 <= i < |k| ==> 'a' <= k[i] <= 'z'
    ensures ToLower(ToUpper(k)) == k
  {
  }

  /** Every stage's key is accepted as written. */
  lemma ParseStageLowerCase(st: ShaderStage)
    ensures ParseStage(StageKey(st)) == Ok(st)
  {
    KeyIsLowerCase(st);
    ParseStageIff(StageKey(st), st);
  }

  /** Every stage's key is accepted in upper case. */
  lemma ParseStageUpperCase(st: ShaderStage)
    ensures ParseStage(ToUpper(StageKey(st))) == Ok(st)
  {
    var k := StageKey(st);
    assert forall i :: 0 <= i < |k| ==> 'a' <= k[i] <= 'z';
    LowerOfUpper(k);
    ParseStageIff(ToUpper(k), st);
  }

  /** Every stage's key is accepted with its first letter capitalised. */
  lemma ParseStageCapitalised(st: ShaderStage)
    ensures ParseStage(ToUpper(StageKey(st)[..1]) + StageKey(st)[1..]) == Ok(st)
  {
    var k := StageKey(st);
    assert forall i :: 0 <= i < |k| ==> 'a' <= k[i] <= 'z';
    var cap := ToUpper(k[..1]) + k[1..];
    assert ToLower(cap) == k by {
      assert forall i :: 0 <= i < |cap| ==> ToLower(cap)[i] == k[i];
    }
    ParseStageIff(cap, st);
  }

  /** The part of a resource-id string that holds the number: the piece after
      the last `"::"`, or the whole string. */
  function IdPart(s: string): string {
    if HasSeparator(s) then Last(Split(s)) else s
  }

  /** `extract_numeric_id`. */
  function ExtractNumericId(s: string): (r: Result<int, ParseError>)
    ensures r.Ok? <==> IsIntLiteral(IdPart(s))
    ensures r.Err? ==> r.error == InvalidInteger(IdPart(s))
  {
    if HasSeparator(s) then
      var part := Last(Split(s));
      match ParseInt(part)
      case Some(n) => Ok(n)
      case None => Err(InvalidInteger(part))
    else
      match ParseInt(s)
      case Some(n) => Ok(n)
      case None => Err(InvalidInteger(s))
  }

  /** `parse_resource_id`: the same number, wrapped as a resource id. */
  function ParseResourceId(s: string): (r: Result<ResourceId, ParseError>)
    ensures r.Ok? <==> IsIntLiteral(IdPart(s))
  {
    var part := IdPart(s);
    match ParseInt(part)
    case Some(n) => Ok(ResourceId(n))
    case None => Err(InvalidInteger(part))
  }

  /** The two parsers accept the same strings and agree on the number. */
  lemma ParsersAgree(s: string)
    ensures ParseResourceId(s).Ok? <==> ExtractNumericId(s).Ok?
    ensures ParseResourceId(s).Ok? ==> ParseResourceId(s).value.id == ExtractNumericId(s).value
  {
  }

  /** A bare decimal number is read as itself. */
  lemma BareNumberRoundTrip(n: int)
    ensures ExtractNumericId(IntToString(n)) == Ok(n)
  {
    IntToStringNoColon(n);
    FirstCharAbsent(IntToString(n), "::");
    IntToStringRoundTrip(n);
  }

  /** A decimal number after a prefix and `"::"` is read as itself, whatever
      the prefix holds, as long as it does not end with a colon. */
  lemma PrefixedNumberRoundTrip(prefix: string, n: int)
    requires |prefix| == 0 || prefix[|prefix| - 1] != ':'
    ensures ExtractNumericId(prefix + "::" + IntToString(n)) == Ok(n)
  {
    var s := prefix + "::" + IntToString(n);
    IntToStringNoColon(n);
    SplitLastPiece(prefix, IntToString(n));
    SeparatorAt(s, |prefix|);
    IntToStringRoundTrip(n);
  }

  /** How a resource id prints (`str(rid)`): `ResourceId::` and the number. */
  function Render(rid: ResourceId): string {
    "ResourceId::" + IntToString(rid.id)
  }

  /** Parsing a printed resource id gives back its number. */
  lemma RenderRoundTrip(rid: ResourceId)
    ensures ExtractNumericId(Render(rid)) == Ok(rid.id)
    ensures ParseResourceId(Render(rid)) == Ok(rid)
  {
    PrefixedNumberRoundTrip("ResourceId", rid.id);
    assert Render(rid) == "ResourceId" + "::" + IntToString(rid.id);
  }

  /** A string ending in `"::"` never parses: its last piece is empty or a
      lone colon. */
  lemma TrailingSeparatorFails(prefix: string)
    ensures ExtractNumericId(prefix + "::").Err?
  {
    var s := prefix + "::";
    SeparatorAt(s, |prefix|);
    SplitTrailingSeparator(prefix);
  }

  /** With several separators, the number after the last one counts. */
  lemma LastSeparatorWins()
    ensures ExtractNumericId("a::b::7") == Ok(7)
  {
    assert "a::b::7" == "a::b" + "::" + IntToString(7);
    PrefixedNumberRoundTrip("a::b", 7);
  }

  /** The keys of a list of stages, in list order. */
  function Keys(stages: seq<ShaderStage>): (ks: seq<string>)
    ensures |ks| == |stages|
  {
    if |stages| == 0 then [] else [StageKey(stages[0])] + Keys(stages[1..])
  }

  /** `get_all_shader_stages` lists the stages in the order of the parser's
      table, and each of them is what its key parses to. */
  lemma AllStagesFollowTable()
    ensures Keys(AllShaderStages()) == ["vertex", "hull", "domain", "geometry", "pixel", "compute"]
    ensures forall i :: 0 <= i < |AllShaderStages()| ==>
              ParseStage(Keys(AllShaderStages())[i]) == Ok(AllShaderStages()[i])
  {
    var st := AllShaderStages();
    var ks := Keys(st);
    assert ks == ["vertex", "hull", "domain", "geometry", "pixel", "compute"] by {
      assert forall i :: 0 <= i < 6 ==> ks[i] == StageKey(st[i]) by {
        KeysAt(st);
      }
    }
    forall i | 0 <= i < |st|
      ensures ParseStage(ks[i]) == Ok(st[i])
    {
      KeysAt(st);
      ParseStageLowerCase(st[i]);
    }
  }

  lemma {:induction false} KeysAt(stages: seq<ShaderStage>)
    ensures forall i :: 0 <= i < |stages| ==> Keys(stages)[i] == StageKey(stages[i])
  {
    if |stages| > 0 {
      KeysAt(stages[1..]);
    }
  }
}

=== FILE: renderdoc.dfy ===
/** The replay engine's data types, as far as the extension reads them: action
    records with their category bitmask, resource ids, texture and buffer
    descriptors, shader stages and shader variables. The engine produces
    these; the extension only reads them. */
module RenderDoc {

  /** The action categories the extension names (`rd.ActionFlags`). */
  datatype ActionFlag =
    | Drawcall | Dispatch | Clear | PushMarker | PopMarker | SetMarker
    | Present | Copy | Resolve | GenMips | PassBoundary | Indexed | Instanced
    | Auto | Indirect | ClearColor | ClearDepthStencil | BeginPass | EndPass

  /** The bit each category occupies in an action's bitmask. The engine's
      numeric values are not modelled; only their distinctness matters. */
  function Bit(f: ActionFlag): nat {
    match f
    case Drawcall => 0
    case Dispatch => 1
    case Clear => 2
    case PushMarker => 3
    case PopMarker => 4
    case SetMarker => 5
    case Present => 6
    case Copy => 7
    case Resolve => 8
    case GenMips => 9
    case PassBoundary => 10
    case Indexed => 11
    case Instanced => 12
    case Auto => 13
    case Indirect => 14
    case ClearColor => 15
    case ClearDepthStencil => 16
    case BeginPass => 17
    case EndPass => 18
  }

  /** A bitmask, given by the positions of its set bits. Positions that no
      category occupies are allowed and stand for bits the extension does not
      know about. */
  type FlagMask = set<nat>

  /** `mask & flag` is non-zero. */
  predicate Has(mask: FlagMask, f: ActionFlag) {
    Bit(f) in mask
  }

  /** The mask with exactly the given categories set. */
  function MaskOf(fs: set<ActionFlag>): (mask: FlagMask)
    ensures forall f :: Has(mask, f) <==> f in fs
  {
    set f | f in fs :: Bit(f)
  }

  /** An engine resource handle; `NullId` is `rd.ResourceId.Null()`. */
  datatype ResourceId = ResourceId(id: int)

  const NullId: ResourceId := ResourceId(0)

  /** Draw parameters and bound outputs that only the detail query reads. */
  datatype DrawParams = DrawParams(
    baseVertex: int,
    vertexOffset: int,
    instanceOffset: int,
    indexOffset: int,
    outputs: seq<ResourceId>,
    depthOut: ResourceId)

  /** One recorded action. `name` stands for `GetName(structured_file)`. */
  datatype Action = Action(
    eventId: nat,
    actionId: nat,
    name: string,
    flags: FlagMask,
    numIndices: nat,
    numInstances: nat,
    draw: DrawParams,
    children: seq<Action>)

  predicate IsPushMarker(a: Action) {
    Has(a.flags, PushMarker)
  }

  /** A Push, Set or Pop marker (the test the filter uses). */
  predicate IsMarker(a: Action) {
    Has(a.flags, PushMarker) || Has(a.flags, SetMarker) || Has(a.flags, PopMarker)
  }

  /** The shader stages the extension enumerates (`rd.ShaderStage`). */
  datatype ShaderStage = Vertex | Hull | Domain | Geometry | Pixel | Compute

  /** Texture metadata (`rd.TextureDescription`), restricted to what the
      texture queries read. */
  datatype TextureDesc = TextureDesc(
    resourceId: ResourceId,
    width: nat,
    height: nat,
    depth: nat,
    arraysize: nat,
    mips: nat,
    cubemap: bool,
    msSamp: nat)

  /** Buffer metadata (`rd.BufferDescription`). */
  datatype BufferDesc = BufferDesc(resourceId: ResourceId, length: nat)

  /** The scalar kinds whose values the variable serializer copies. */
  datatype VarType = Float | Int | UInt | OtherType

  /** A shader constant. The three value views are the engine's `f32v`,
      `s32v` and `u32v` arrays; their element values are opaque here. */
  datatype ShaderVariable = ShaderVariable(
    name: string,
    varType: VarType,
    rows: nat,
    columns: nat,
    f32v: seq<int>,
    s32v: seq<int>,
    u32v: seq<int>,
    members: seq<ShaderVariable>)
}

=== FILE: resource_service.dfy ===
/** The pure parts of `ResourceService`: texture lookup by numeric id, the
    sub-resource checks of `get_texture_data` with their fixed precedence,
    mip-level sizing, depth-slice extraction, and the buffer lookup with
    its read-length default. The replay controller's lists are inputs and
    its data reads are function parameters. */
module ResourceService {
  import opened Results
  import opened RenderDoc
  import opened Parsers

  type Byte = bv8

  datatype ResourceError =
    | NoCaptureLoaded
    | InvalidId(text: string)
    | TextureNotFound(resourceId: string)
    | InvalidMip(mip: int, mips: nat)
    | InvalidSlice(slice: int, maxSlices: nat)
    | InvalidSample(sample: int, samples: nat)
    | DepthSliceNeeds3D
    | InvalidDepthSlice(depthSlice: int, mipDepth: nat, mip: int)
    | FetchFailed
    | InvalidResourceId(resourceId: string)
    | BufferNotFound(resourceId: string)

  /** The controller's resource lists for a loaded capture. */
  datatype Resources = Resources(textures: seq<TextureDesc>, buffers: seq<BufferDesc>)

  /** The loop of `_find_texture_by_id` once the target is parsed: each
      texture's id is printed and parsed back, and the first equal one
      wins. */
  function ScanTextures(textures: seq<TextureDesc>, target: int): Option<TextureDesc> {
    if |textures| == 0 then None
    else if ExtractNumericId(Render(textures[0].resourceId)) == Ok(target) then Some(textures[0])
    else ScanTextures(textures[1..], target)
  }

  /** `_find_texture_by_id`: an unparsable target is an error (the parser's
      `ValueError` escapes); otherwise the scan's answer. */
  function FindTextureById(textures: seq<TextureDesc>, resourceId: string): (r: Result<Option<TextureDesc>, ResourceError>)
    ensures r.Err? <==> ExtractNumericId(resourceId).Err?
    ensures r.Err? ==> r.error == InvalidId(resourceId)
    ensures r.Ok? ==>
              var target := ExtractNumericId(resourceId).value;
              && (r.value.None? <==> forall i :: 0 <= i < |textures| ==> textures[i].resourceId.id != target)
              && (r.value.Some? ==>
                    exists i :: 0 <= i < |textures| && textures[i] == r.value.value
                      && textures[i].resourceId.id == target
                      && forall j :: 0 <= j < i ==> textures[j].resourceId.id != target)
  {
    match ExtractNumericId(resourceId)
    case Err(_) => Err(InvalidId(resourceId))
    case Ok(target) => ScanFindsFirst(textures, target); Ok(ScanTextures(textures, target))
  }

  /** The scan finds the first texture whose numeric id is the target, and
      finds nothing exactly when no texture has that id. */
  lemma ScanFindsFirst(textures: seq<TextureDesc>, target: int)
    ensures ScanTextures(textures, target).None? <==>
              forall i :: 0 <= i < |textures| ==> textures[i].resourceId.id != target
    ensures ScanTextures(textures, target).Some? ==>
              exists i :: 0 <= i < |textures| && textures[i] == ScanTextures(textures, target).value
                && textures[i].resourceId.id == target
                && forall j :: 0 <= j < i ==> textures[j].resourceId.id != target
  {
    ScanMatchesIds(textures, target);
    var k := ScanIndex(textures, target);
    if k < |textures| {
      assert textures[k] == ScanTextures(textures, target).value;
    }
  }

  /** The same scan comparing the ids' numbers directly. */
  function ScanIds(textures: seq<TextureDesc>, target: int): Option<TextureDesc> {
    if |textures| == 0 then None
    else if textures[0].resourceId.id == target then Some(textures[0])
    else ScanIds(textures[1..], target)
  }

  /** Comparing through the printed id and its parse is comparing numbers. */
  lemma {:induction false} ScanMatchesIds(textures: seq<TextureDesc>, target: int)
    ensures ScanTextures(textures, target) == ScanIds(textures, target)
    decreases textures
  {
    if |textures| > 0 {
      ScanStep(textures, target);
      ScanMatchesIds(textures[1..], target);
    }
  }

  /** Where the scan stops: the first texture with the target id, or the
      length of the list when there is none. */
  lemma {:induction false} ScanIndex(textures: seq<TextureDesc>, target: int) returns (k: nat)
    ensures k <= |textures|
    ensures forall j :: 0 <= j < k ==> textures[j].resourceId.id != target
    ensures k < |textures| ==> textures[k].resourceId.id == target && ScanIds(textures, target) == Some(textures[k])
    ensures k == |textures| ==> ScanIds(textures, target) == None
    decreases textures
  {
    if |textures| == 0 {
      k := 0;
    } else if textures[0].resourceId.id == target {
      k := 0;
    } else {
      var k' := ScanIndex(textures[1..], target);
      k := k' + 1;
      assert forall j :: 1 <= j < k ==> textures[j] == textures[1..][j - 1];
    }
  }

  /** One step of the scan: a texture matches exactly when its id's number
      is the target, because a printed id parses back to its number. */
  lemma ScanStep(textures: seq<TextureDesc>, target: int)
    requires |textures| > 0
    ensures ScanTextures(textures, target) ==
              if textures[0].resourceId.id == target then Some(textures[0]) else ScanTextures(textures[1..], target)
  {
    RenderRoundTrip(textures[0].resourceId);
  }

  /** `d >> k` for a non-negative `d`: `k` halvings, each rounding down. */
  function Shr(d: nat, k: nat): nat {
    if k == 0 then d else Shr(d, k - 1) / 2
  }

  /** `max(1, d >> mip)`. */
  function MipDim(d: nat, mip: nat): nat {
    var shifted := Shr(d, mip);
    if shifted > 1 then shifted else 1
  }

  /** A mip level is never empty and never larger than the texture (or 1),
      level 0 has the full size, and each level is half the one above it
      (rounded down) but at least 1, so levels never grow. */
  lemma {:induction false} MipDimProperties(d: nat, mip: nat)
    ensures MipDim(d, mip) >= 1
    ensures MipDim(d, mip) <= if d > 1 then d else 1
    ensures d >= 1 ==> MipDim(d, 0) == d
    ensures MipDim(d, mip + 1) == if MipDim(d, mip) / 2 > 1 then MipDim(d, mip) / 2 else 1
    ensures MipDim(d, mip + 1) <= MipDim(d, mip)
  {
    ShrBelow(d, mip);
  }

  lemma {:induction false} ShrBelow(d: nat, k: nat)
    ensures Shr(d, k) <= d
  {
    if k > 0 {
      ShrBelow(d, k - 1);
    }
  }

  /** The number of slices a subresource index may address: six faces per
      array element for a cube map. */
  function MaxSlices(tex: TextureDesc): nat {
    if tex.cubemap then tex.arraysize * 6 else tex.arraysize
  }

  /** Each check on its own. */
  predicate MipOk(tex: TextureDesc, mip: int) {
    0 <= mip < tex.mips
  }

  predicate SliceOk(tex: TextureDesc, slice: int) {
    0 <= slice && (MaxSlices(tex) <= 1 || slice < MaxSlices(tex))
  }

  predicate SampleOk(tex: TextureDesc, sample: int) {
    0 <= sample && (tex.msSamp <= 1 || sample < tex.msSamp)
  }

  predicate Is3D(tex: TextureDesc) {
    tex.depth > 1
  }

  predicate DepthSliceOk(tex: TextureDesc, mip: nat, depthSlice: Option<int>) {
    depthSlice.None? || (Is3D(tex) && 0 <= depthSlice.value < MipDim(tex.depth, mip))
  }

  /** The checks of `get_texture_data` after the lookup, in source order;
      the first one that fails names the error. */
  function CheckSubresource(tex: TextureDesc, mip: int, slice: int, sample: int, depthSlice: Option<int>): Option<ResourceError> {
    if mip < 0 || mip >= tex.mips then Some(InvalidMip(mip, tex.mips))
    else if slice < 0 || (MaxSlices(tex) > 1 && slice >= MaxSlices(tex)) then Some(InvalidSlice(slice, MaxSlices(tex)))
    else if sample < 0 || (tex.msSamp > 1 && sample >= tex.msSamp) then Some(InvalidSample(sample, tex.msSamp))
    else if depthSlice.Some? && !Is3D(tex) then Some(DepthSliceNeeds3D)
    else if depthSlice.Some? && (depthSlice.value < 0 || depthSlice.value >= MipDim(tex.depth, mip))
    then Some(InvalidDepthSlice(depthSlice.value, MipDim(tex.depth, mip), mip))
    else None
  }

  /** The checks' precedence: each error is reported exactly when its own
      check fails and every earlier check passed, and nothing is reported
      exactly when all pass. */
  lemma CheckPrecedence(tex: TextureDesc, mip: int, slice: int, sample: int, depthSlice: Option<int>)
    ensures
      var c := CheckSubresource(tex, mip, slice, sample, depthSlice);
      && ((c.Some? && c.value.InvalidMip?) <==> !MipOk(tex, mip))
      && ((c.Some? && c.value.InvalidSlice?) <==> MipOk(tex, mip) && !SliceOk(tex, slice))
      && ((c.Some? && c.value.InvalidSample?) <==>
            MipOk(tex, mip) && SliceOk(tex, slice) && !SampleOk(tex, sample))
      && (c == Some(DepthSliceNeeds3D) <==>
            MipOk(tex, mip) && SliceOk(tex, slice) && SampleOk(tex, sample) && depthSlice.Some? && !Is3D(tex))
      && ((c.Some? && c.value.InvalidDepthSlice?) <==>
            MipOk(tex, mip) && SliceOk(tex, slice) && SampleOk(tex, sample) && depthSlice.Some? && Is3D(tex)
            && !DepthSliceOk(tex, mip, depthSlice))
      && (c.None? <==>
            MipOk(tex, mip) && SliceOk(tex, slice) && SampleOk(tex, sample) && DepthSliceOk(tex, mip, depthSlice))
  {
  }

  /** Bytes `[ds * bps, (ds + 1) * bps)` of the mip's data, where
      `bps = len(data) // mip_depth`. */
  function ExtractDepthSlice(data: seq<Byte>, mipDepth: nat, ds: nat): (out: seq<Byte>)
    requires 1 <= mipDepth && ds < mipDepth
    ensures |out| == |data| / mipDepth
  {
    var bps := |data| / mipDepth;
    SliceInBounds(|data|, mipDepth, ds);
    data[ds * bps..ds * bps + bps]
  }

  /** The slice lies inside the data. */
  lemma SliceInBounds(len: nat, mipDepth: nat, ds: nat)
    requires 1 <= mipDepth && ds < mipDepth
    ensures (ds + 1) * (len / mipDepth) <= len
  {
    var bps := len / mipDepth;
    MulLeft(ds + 1, mipDepth, bps);
    assert mipDepth * bps <= len;
  }

  lemma MulLeft(a: nat, b: nat, c: nat)
    requires a <= b
    ensures a * c <= b * c
  {
  }

  /** The first `n` depth slices, one after another. */
  function SlicesBefore(data: seq<Byte>, mipDepth: nat, n: nat): seq<Byte>
    requires 1 <= mipDepth && n <= mipDepth
  {
    if n == 0 then [] else SlicesBefore(data, mipDepth, n - 1) + ExtractDepthSlice(data, mipDepth, n - 1)
  }

  /** The depth slices tile the data: laid end to end, the first `n` slices
      are exactly the first `n * bps` bytes, so slices are contiguous,
      disjoint and in order. */
  lemma {:induction false} SlicesTile(data: seq<Byte>, mipDepth: nat, n: nat)
    requires 1 <= mipDepth && n <= mipDepth
    ensures n * (|data| / mipDepth) <= |data|
    ensures SlicesBefore(data, mipDepth, n) == data[..n * (|data| / mipDepth)]
  {
    var bps := |data| / mipDepth;
    if n == 0 {
      assert n * bps == 0;
    } else {
      SlicesTile(data, mipDepth, n - 1);
      SliceInBounds(|data|, mipDepth, n - 1);
      var lo := (n - 1) * bps;
      var hi := n * bps;
      assert lo + bps == hi;
      assert ExtractDepthSlice(data, mipDepth, n - 1) == data[lo..hi];
      assert data[..hi] == data[..lo] + data[lo..hi];
    }
  }

  /** The sub-resource the texture read addresses. */
  datatype Subresource = Subresource(mip: nat, slice: nat, sample: nat)

  /** The dictionary `get_texture_data` returns, without the engine's
      format and dimension names; `data` stands for the bytes it encodes. */
  datatype TextureData = TextureData(
    resourceId: string,
    width: nat,
    height: nat,
    depth: nat,
    mip: nat,
    slice: nat,
    sample: nat,
    depthSlice: Option<int>,
    is3D: bool,
    totalDepth: nat,
    data: seq<Byte>)

  /** What `get_texture_data` does once the texture is found: the checks,
      then the read; `fetch` is the controller's `GetTextureData`, `None`
      when it raises. */
  function ReadTexture(
    tex: TextureDesc, resourceId: string, mip: int, slice: int, sample: int, depthSlice: Option<int>,
    fetch: (ResourceId, Subresource) -> Option<seq<Byte>>): (r: Result<TextureData, ResourceError>)
    ensures CheckSubresource(tex, mip, slice, sample, depthSlice).Some? ==>
              r == Err(CheckSubresource(tex, mip, slice, sample, depthSlice).value)
    ensures CheckSubresource(tex, mip, slice, sample, depthSlice).None? ==>
              (r.Err? <==> fetch(tex.resourceId, Subresource(mip, slice, sample)).None?) && (r.Err? ==> r.error == FetchFailed)
    ensures r.Ok? ==>
              && CheckSubresource(tex, mip, slice, sample, depthSlice).None?
              && r.value.resourceId == resourceId
              && r.value.mip == mip && r.value.slice == slice && r.value.sample == sample
              && r.value.depthSlice == depthSlice && r.value.is3D == Is3D(tex)
              && r.value.width == MipDim(tex.width, mip) && r.value.height == MipDim(tex.height, mip)
              && r.value.width >= 1 && r.value.height >= 1 && r.value.depth >= 1
              && (depthSlice.Some? ==> r.value.depth == 1)
              && (depthSlice.None? ==> r.value.depth == MipDim(tex.depth, mip))
              && r.value.totalDepth == (if Is3D(tex) then MipDim(tex.depth, mip) else 1)
              && (depthSlice.None? ==> r.value.data == fetch(tex.resourceId, Subresource(mip, slice, sample)).value)
  {
    match CheckSubresource(tex, mip, slice, sample, depthSlice)
    case Some(e) => Err(e)
    case None =>
      var m: nat := mip;
      var w := MipDim(tex.width, m);
      var h := MipDim(tex.height, m);
      var d := MipDim(tex.depth, m);
      MipDimProperties(tex.width, m);
      MipDimProperties(tex.height, m);
      MipDimProperties(tex.depth, m);
      match fetch(tex.resourceId, Subresource(m, slice, sample))
      case None => Err(FetchFailed)
      case Some(bytes) =>
        var out := if Is3D(tex) && depthSlice.Some? then ExtractDepthSlice(bytes, d, depthSlice.value) else bytes;
        Ok(TextureData(
          resourceId, w, h, if Is3D(tex) && depthSlice.Some? then 1 else d,
          m, slice, sample, depthSlice, Is3D(tex), if Is3D(tex) then d else 1, out))
  }

  /** `get_texture_data`: no capture, then a malformed id, then an unknown
      texture, then the sub-resource checks and the read. */
  function GetTextureData(
    res: Option<Resources>, resourceId: string, mip: int, slice: int, sample: int, depthSlice: Option<int>,
    fetch: (ResourceId, Subresource) -> Option<seq<Byte>>): (r: Result<TextureData, ResourceError>)
    ensures res.None? ==> r == Err(NoCaptureLoaded)
    ensures res.Some? && FindTextureById(res.value.textures, resourceId).Err? ==> r == Err(InvalidId(resourceId))
    ensures res.Some? && FindTextureById(res.value.textures, resourceId) == Ok(None) ==> r == Err(TextureNotFound(resourceId))
    ensures res.Some? && FindTextureById(res.value.textures, resourceId).Ok? && FindTextureById(res.value.textures, resourceId).value.Some? ==>
              var tex := FindTextureById(res.value.textures, resourceId).value.value;
              && (CheckSubresource(tex, mip, slice, sample, depthSlice).Some? ==> r == Err(CheckSubresource(tex, mip, slice, sample, depthSlice).value))
              && (CheckSubresource(tex, mip, slice, sample, depthSlice).None? ==>
                    (r.Err? <==> fetch(tex.resourceId, Subresource(mip, slice, sample)).None?) && (r.Err? ==> r.error == FetchFailed))
              && r == ReadTexture(tex, resourceId, mip, slice, sample, depthSlice, fetch)
    ensures r.Ok? ==>
              && res.Some?
              && FindTextureById(res.value.textures, resourceId).Ok?
              && FindTextureById(res.value.textures, resourceId).value.Some?
              && var tex := FindTextureById(res.value.textures, resourceId).value.value;
                 && CheckSubresource(tex, mip, slice, sample, depthSlice).None?
                 && r.value.mip == mip
                 && r.value.width == MipDim(tex.width, mip) && r.value.height == MipDim(tex.height, mip)
                 && r.value.width >= 1 && r.value.height >= 1 && r.value.depth >= 1
                 && (depthSlice.Some? ==> r.value.depth == 1)
                 && (depthSlice.None? ==> r.value.depth == MipDim(tex.depth, mip))
  {
    if res.None? then Err(NoCaptureLoaded)
    else
      match FindTextureById(res.value.textures, resourceId)
      case Err(e) => Err(e)
      case Ok(None) => Err(TextureNotFound(resourceId))
      case Ok(Some(tex)) => ReadTexture(tex, resourceId, mip, slice, sample, depthSlice, fetch)
  }

  /** A read that passes every check returns the requested depth slice of
      what the controller returned: `bps = len // mip_depth` bytes starting
      at `depth_slice * bps`. */
  lemma DepthSliceRead(
    tex: TextureDesc, resourceId: string, mip: nat, slice: nat, sample: nat, ds: int,
    fetch: (ResourceId, Subresource) -> Option<seq<Byte>>, bytes: seq<Byte>)
    requires CheckSubresource(tex, mip, slice, sample, Some(ds)).None?
    requires fetch(tex.resourceId, Subresource(mip, slice, sample)) == Some(bytes)
    ensures Is3D(tex) && 0 <= ds < MipDim(tex.depth, mip)
    ensures ReadTexture(tex, resourceId, mip, slice, sample, Some(ds), fetch).Ok?
    ensures
      var r := ReadTexture(tex, resourceId, mip, slice, sample, Some(ds), fetch).value;
      var bps := |bytes| / MipDim(tex.depth, mip);
      var lo := ds * bps;
      && 0 <= lo && lo + bps <= |bytes|
      && r.data == bytes[lo..lo + bps]
      && r.depth == 1 && r.totalDepth == MipDim(tex.depth, mip)
  {
    SliceInBounds(|bytes|, MipDim(tex.depth, mip), ds);
  }

  /** `get_buffer_contents`; `fetch` is the controller's `GetBufferData`. */
  datatype BufferData = BufferData(resourceId: string, length: nat, totalSize: nat, offset: int, data: seq<Byte>)

  /** The first buffer whose resource id equals `rid`. */
  function FindBuffer(buffers: seq<BufferDesc>, rid: ResourceId): (r: Option<BufferDesc>)
    ensures r.Some? ==> r.value in buffers && r.value.resourceId == rid
    ensures r.Some? ==>
              exists i :: 0 <= i < |buffers| && buffers[i] == r.value
                && forall j :: 0 <= j < i ==> buffers[j].resourceId != rid
    ensures r.None? <==> forall i :: 0 <= i < |buffers| ==> buffers[i].resourceId != rid
  {
    if |buffers| == 0 then None
    else if buffers[0].resourceId == rid then Some(buffers[0])
    else
      var rest := FindBuffer(buffers[1..], rid);
      if rest.Some? then FirstBehindHead(buffers, rid, rest.value); rest
      else rest
  }

  /** A first match in the tail, behind a head that does not match, is the
      first match of the whole list. */
  lemma FirstBehindHead(buffers: seq<BufferDesc>, rid: ResourceId, b: BufferDesc)
    requires |buffers| > 0 && buffers[0].resourceId != rid
    requires exists i :: 0 <= i < |buffers| - 1 && buffers[1..][i] == b
               && forall j :: 0 <= j < i ==> buffers[1..][j].resourceId != rid
    ensures exists i :: 0 <= i < |buffers| && buffers[i] == b
              && forall j :: 0 <= j < i ==> buffers[j].resourceId != rid
  {
    var i :| 0 <= i < |buffers| - 1 && buffers[1..][i] == b
             && forall j :: 0 <= j < i ==> buffers[1..][j].resourceId != rid;
    assert buffers[i + 1] == b;
    assert forall j :: 1 <= j < i + 1 ==> buffers[j] == buffers[1..][j - 1];
  }

  /** The number of bytes asked for: `length` when positive, otherwise the
      whole buffer. */
  function ReadLength(length: int, buf: BufferDesc): nat {
    if length > 0 then length else buf.length
  }

  function GetBufferContents(
    res: Option<Resources>, resourceId: string, offset: int, length: int,
    fetch: (ResourceId, int, nat) -> seq<Byte>): (r: Result<BufferData, ResourceError>)
    ensures res.None? ==> r == Err(NoCaptureLoaded)
    ensures res.Some? && ParseResourceId(resourceId).Err? ==> r == Err(InvalidResourceId(resourceId))
    ensures res.Some? && ParseResourceId(resourceId).Ok? ==>
              (r == Err(BufferNotFound(resourceId)) <==> FindBuffer(res.value.buffers, ParseResourceId(resourceId).value).None?)
    ensures res.Some? && ParseResourceId(resourceId).Ok? && FindBuffer(res.value.buffers, ParseResourceId(resourceId).value).Some? ==>
              r.Ok?
    ensures r.Ok? ==>
              var buf := FindBuffer(res.value.buffers, ParseResourceId(resourceId).value).value;
              && r.value.resourceId == resourceId && r.value.offset == offset
              && r.value.totalSize == buf.length
              && r.value.length == |r.value.data|
              && r.value.data == fetch(buf.resourceId, offset, ReadLength(length, buf))
  {
    if res.None? then Err(NoCaptureLoaded)
    else
      match ParseResourceId(resourceId)
      case Err(_) => Err(InvalidResourceId(resourceId))
      case Ok(rid) =>
        match FindBuffer(res.value.buffers, rid)
        case None => Err(BufferNotFound(resourceId))
        case Some(buf) =>
          var data := fetch(rid, offset, ReadLength(length, buf));
          Ok(BufferData(resourceId, |data|, buf.length, offset, data))
  }

  /** A non-positive length reads the whole buffer; a positive one reads
      that many bytes. */
  lemma ReadLengthDefault(length: int, buf: BufferDesc)
    ensures length <= 0 ==> ReadLength(length, buf) == buf.length
    ensures length > 0 ==> ReadLength(length, buf) == length
  {
  }
}

=== FILE: results.dfy ===
/** Optional values and error-carrying results, used wherever the Python code
    returns `None` or raises. */
module Results {

  /** A value that may be absent (Python's `None`). */
  datatype Option<+T> = None | Some(value: T)

  /** The outcome of an operation that may raise: a value or an error. */
  datatype Result<+T, +E> = Ok(value: T) | Err(error: E)
}

=== FILE: sequences.dfy ===
/** Order-preserving selection between sequences, used to say that an output
    lists some of the entries of a reference listing, in the same order. */
module Sequences {

  /** `xs` can be obtained from `ys` by deleting entries. */
  predicate Subseq<T(==)>(xs: seq<T>, ys: seq<T>)
    decreases |ys|
  {
    if |xs| == 0 then true
    else if |ys| == 0 then false
    else (xs[0] == ys[0] && Subseq(xs[1..], ys[1..])) || Subseq(xs, ys[1..])
  }

  /** No entry occurs twice. */
  predicate Distinct<T(==)>(xs: seq<T>) {
    forall i, j :: 0 <= i < j < |xs| ==> xs[i] != xs[j]
  }

  /** Everything a subsequence lists is listed by the original. */
  lemma {:induction false} SubseqMembers<T>(xs: seq<T>, ys: seq<T>)
    requires Subseq(xs, ys)
    ensures forall x :: x in xs ==> x in ys
    decreases |ys|
  {
    if |xs| > 0 {
      if xs[0] == ys[0] && Subseq(xs[1..], ys[1..]) {
        SubseqMembers(xs[1..], ys[1..]);
        assert forall x :: x in xs ==> x == xs[0] || x in xs[1..];
      } else {
        SubseqMembers(xs, ys[1..]);
      }
    }
  }

  /** A subsequence stays one when more entries precede the original. */
  lemma {:induction false} SubseqPrepend<T>(xs: seq<T>, zs: seq<T>, ys: seq<T>)
    requires Subseq(xs, ys)
    ensures Subseq(xs, zs + ys)
    decreases |zs|
  {
    if |zs| > 0 && |xs| > 0 {
      SubseqPrepend(xs, zs[1..], ys);
      assert (zs + ys)[1..] == zs[1..] + ys;
      assert Subseq(xs, (zs + ys)[1..]);
    } else if |zs| == 0 {
      assert zs + ys == ys;
    }
  }

  /** Every sequence is a subsequence of itself. */
  lemma {:induction false} SubseqRefl<T>(xs: seq<T>)
    ensures Subseq(xs, xs)
    decreases |xs|
  {
    if |xs| > 0 {
      SubseqRefl(xs[1..]);
    }
  }

  /** Subsequences of two parts combine into a subsequence of the whole. */
  lemma {:induction false} SubseqConcat<T>(a1: seq<T>, b1: seq<T>, a2: seq<T>, b2: seq<T>)
    requires Subseq(a1, b1) && Subseq(a2, b2)
    ensures Subseq(a1 + a2, b1 + b2)
    decreases |b1|
  {
    if |a1| == 0 {
      assert a1 + a2 == a2;
      SubseqPrepend(a2, b1, b2);
    } else if a1[0] == b1[0] && Subseq(a1[1..], b1[1..]) {
      SubseqConcat(a1[1..], b1[1..], a2, b2);
      assert (a1 + a2)[1..] == a1[1..] + a2;
      assert (b1 + b2)[1..] == b1[1..] + b2;
    } else {
      SubseqConcat(a1, b1[1..], a2, b2);
      assert (b1 + b2)[1..] == b1[1..] + b2;
    }
  }

  /** A shared first entry extends a subsequence. */
  lemma SubseqCons<T>(x: T, xs: seq<T>, ys: seq<T>)
    requires Subseq(xs, ys)
    ensures Subseq([x] + xs, [x] + ys)
  {
    assert ([x] + xs)[1..] == xs;
    assert ([x] + ys)[1..] == ys;
  }
}

=== FILE: text.dfy ===
/** String operations the Python code relies on: substring search (`in`),
    ASCII lower-casing (`str.lower`) and splitting on the `"::"` separator. */
module Text {

  /** `p` is a prefix of `s`. */
  predicate IsPrefix(p: string, s: string) {
    |p| <= |s| && s[..|p|] == p
  }

  /** `sub` occurs in `s` starting at index `i`. */
  predicate OccursAt(s: string, sub: string, i: int) {
    0 <= i && i + |sub| <= |s| && s[i..i + |sub|] == sub
  }

  /** Python's `sub in s`, scanning the start positions of `s` left to right. */
  predicate Contains(s: string, sub: string)
    decreases |s|
  {
    IsPrefix(sub, s) || (|s| > 0 && Contains(s[1..], sub))
  }

  /** An occurrence at any position is found by the scan. */
  lemma {:induction false} OccursImpliesContains(s: string, sub: string, i: int)
    requires OccursAt(s, sub, i)
    ensures Contains(s, sub)
    decreases i
  {
    if i == 0 {
      assert IsPrefix(sub, s);
    } else {
      assert s[1..][i - 1..i - 1 + |sub|] == s[i..i + |sub|];
      OccursImpliesContains(s[1..], sub, i - 1);
    }
  }

  /** The scan succeeds only where some position holds `sub`. */
  lemma {:induction false} ContainsImpliesOccurs(s: string, sub: string) returns (i: int)
    requires Contains(s, sub)
    ensures OccursAt(s, sub, i)
    decreases |s|
  {
    if IsPrefix(sub, s) {
      i := 0;
    } else {
      var j := ContainsImpliesOccurs(s[1..], sub);
      assert s[1..][j..j + |sub|] == s[j + 1..j + 1 + |sub|];
      i := j + 1;
    }
  }

  /** The scan finds `sub` exactly when some position of `s` holds it. */
  lemma ContainsIffOccurs(s: string, sub: string)
    ensures Contains(s, sub) <==> exists i :: OccursAt(s, sub, i)
  {
    if Contains(s, sub) {
      var i := ContainsImpliesOccurs(s, sub);
    }
    forall i | OccursAt(s, sub, i) ensures Contains(s, sub) {
      OccursImpliesContains(s, sub, i);
    }
  }

  /** A non-empty pattern whose first character never occurs in `s` is not
      contained in `s`. */
  lemma FirstCharAbsent(s: string, sub: string)
    requires |sub| > 0
    requires forall i :: 0 <= i < |s| ==> s[i] != sub[0]
    ensures !Contains(s, sub)
  {
    if Contains(s, sub) {
      var i := ContainsImpliesOccurs(s, sub);
      assert false;
    }
  }

  /** A string shorter than the separator cannot contain it. */
  lemma ShortHasNoSeparator(s: string)
    requires |s| < 2
    ensures !HasSeparator(s)
  {
    if HasSeparator(s) {
      var i := ContainsImpliesOccurs(s, "::");
    }
  }

  /** ASCII upper-case letters map to lower case; everything else is kept. */
  function LowerChar(c: char): (r: char)
    ensures 'A' <= c <= 'Z' ==> 'a' <= r <= 'z'
    ensures !('A' <= c <= 'Z') ==> r == c
  {
    if 'A' <= c <= 'Z' then (c as int - 'A' as int + 'a' as int) as char else c
  }

  /** Lower-cases `s` character by character. */
  function ToLower(s: string): (r: string)
    ensures |r| == |s|
    ensures forall i :: 0 <= i < |s| ==> r[i] == LowerChar(s[i])
  {
    seq(|s|, i requires 0 <= i < |s| => LowerChar(s[i]))
  }

  /** ASCII lower-case letters map to upper case; everything else is kept. */
  function UpperChar(c: char): char {
    if 'a' <= c <= 'z' then (c as int - 'a' as int + 'A' as int) as char else c
  }

  /** Upper-cases `s` character by character. */
  function ToUpper(s: string): (r: string)
    ensures |r| == |s|
    ensures forall i :: 0 <= i < |s| ==> r[i] == UpperChar(s[i])
  {
    seq(|s|, i requires 0 <= i < |s| => UpperChar(s[i]))
  }

  /** `s` contains the two-character separator `"::"`. */
  predicate HasSeparator(s: string) {
    Contains(s, "::")
  }

  /** Python's `s.split("::")`: the separator is searched left to right and
      the pieces between non-overlapping occurrences are returned in order. */
  function Split(s: string): (parts: seq<string>)
    ensures |parts| >= 1
    decreases |s|
  {
    if |s| < 2 then [s]
    else if s[0] == ':' && s[1] == ':' then [""] + Split(s[2..])
    else
      var rest := Split(s[1..]);
      [[s[0]] + rest[0]] + rest[1..]
  }

  /** Joins pieces with `"::"` between them (Python's `"::".join(parts)`). */
  function Join(parts: seq<string>): string
    requires |parts| >= 1
  {
    if |parts| == 1 then parts[0] else parts[0] + "::" + Join(parts[1..])
  }

  /** The last element of a non-empty sequence (Python's `xs[-1]`). */
  function Last<T>(xs: seq<T>): T
    requires |xs| >= 1
  {
    xs[|xs| - 1]
  }

  /** Splitting loses nothing: joining the pieces back gives the input. */
  lemma {:induction false} SplitJoin(s: string)
    ensures Join(Split(s)) == s
    decreases |s|
  {
    if |s| < 2 {
    } else if s[0] == ':' && s[1] == ':' {
      SplitJoin(s[2..]);
      SplitJoinAtSeparator(s);
    } else {
      SplitJoin(s[1..]);
      SplitJoinStep(s);
    }
  }

  /** The step of `SplitJoin` at a separator. */
  lemma SplitJoinAtSeparator(s: string)
    requires |s| >= 2 && s[0] == ':' && s[1] == ':'
    requires Join(Split(s[2..])) == s[2..]
    ensures Join(Split(s)) == s
  {
    var tail := Split(s[2..]);
    assert Split(s) == [""] + tail;
    assert (Split(s))[1..] == tail;
    assert Join(Split(s)) == "" + "::" + Join(tail);
    assert s == "" + "::" + s[2..];
  }

  /** The step of `SplitJoin` at any other character. */
  lemma SplitJoinStep(s: string)
    requires |s| >= 2 && !(s[0] == ':' && s[1] == ':')
    requires Join(Split(s[1..])) == s[1..]
    ensures Join(Split(s)) == s
  {
    var rest := Split(s[1..]);
    var parts := Split(s);
    var head := [s[0]];
    assert parts == [head + rest[0]] + rest[1..];
    assert s == head + s[1..];
    if |rest| == 1 {
      assert Join(parts) == head + rest[0];
    } else {
      JoinStep(head, rest);
    }
  }

  /** Prepending to the first piece prepends to the join. */
  lemma JoinStep(head: string, rest: seq<string>)
    requires |rest| >= 2
    ensures Join([head + rest[0]] + rest[1..]) == head + Join(rest)
  {
    var parts := [head + rest[0]] + rest[1..];
    var j := Join(rest[1..]);
    assert parts[1..] == rest[1..];
    assert Join(parts) == (head + rest[0]) + "::" + j;
    assert Join(rest) == rest[0] + "::" + j;
    Assoc(head, rest[0], "::", j);
  }

  lemma Assoc(a: string, b: string, c: string, d: string)
    ensures (a + b) + c + d == a + (b + c + d)
  {
  }

  /** Without a separator, splitting returns the whole string as one piece. */
  lemma {:induction false} SplitNoSeparator(s: string)
    ensures !HasSeparator(s) <==> Split(s) == [s]
    decreases |s|
  {
    if |s| < 2 {
      ShortHasNoSeparator(s);
    } else if s[0] == ':' && s[1] == ':' {
      assert IsPrefix("::", s);
    } else {
      assert !IsPrefix("::", s);
      SplitNoSeparator(s[1..]);
      var rest := Split(s[1..]);
      if HasSeparator(s[1..]) {
        SplitHasTwoParts(s[1..]);
      } else {
        assert [s[0]] + s[1..] == s;
      }
    }
  }

  /** With a separator, splitting yields at least two pieces. */
  lemma {:induction false} SplitHasTwoParts(s: string)
    requires HasSeparator(s)
    ensures |Split(s)| >= 2
    decreases |s|
  {
    if |s| < 2 {
      ShortHasNoSeparator(s);
    } else if s[0] == ':' && s[1] == ':' {
    } else {
      assert !IsPrefix("::", s);
      SplitHasTwoParts(s[1..]);
    }
  }

  /** The separator can be found wherever it occurs. */
  lemma SeparatorAt(s: string, i: nat)
    requires i + 2 <= |s| && s[i] == ':' && s[i + 1] == ':'
    ensures HasSeparator(s)
  {
    assert s[i..i + 2] == "::";
    OccursImpliesContains(s, "::", i);
  }

  /** The last piece of `p + "::" + t` is `t`, when `t` has no colon and `p`
      does not end with one (a colon there would join the separator). */
  lemma {:induction false} SplitLastPiece(p: string, t: string)
    requires |p| == 0 || p[|p| - 1] != ':'
    requires forall i :: 0 <= i < |t| ==> t[i] != ':'
    ensures Last(Split(p + "::" + t)) == t
    decreases |p|
  {
    var s := p + "::" + t;
    if |p| == 0 {
      assert s == "::" + t && s[2..] == t;
      FirstCharAbsent(t, "::");
      SplitNoSeparator(t);
    } else if |p| >= 2 && p[0] == ':' && p[1] == ':' {
      assert s[2..] == p[2..] + "::" + t;
      SplitLastPiece(p[2..], t);
    } else {
      assert s[0] == p[0];
      assert |p| >= 2 ==> s[1] == p[1];
      assert |p| == 1 ==> p[0] != ':';
      assert s[1..] == p[1..] + "::" + t;
      SplitLastPiece(p[1..], t);
      SeparatorAt(s[1..], |p| - 1);
      SplitHasTwoParts(s[1..]);
    }
  }

  /** A string ending in the separator splits into a last piece that is
      empty, or a lone colon when one more colon precedes the separator. */
  lemma {:induction false} SplitTrailingSeparator(p: string)
    ensures Last(Split(p + "::")) == "" || Last(Split(p + "::")) == ":"
    decreases |p|
  {
    var s := p + "::";
    if |p| == 0 {
      assert s[2..] == "";
    } else if |p| >= 2 && p[0] == ':' && p[1] == ':' {
      assert s[2..] == p[2..] + "::";
      SplitTrailingSeparator(p[2..]);
    } else if |p| == 1 && p[0] == ':' {
      assert s == ":::" && s[2..] == ":";
      assert s[1..] == "::";
    } else {
      assert s[0] == p[0];
      assert |p| >= 2 ==> s[1] == p[1];
      assert s[1..] == p[1..] + "::";
      SplitTrailingSeparator(p[1..]);
      SeparatorAt(s[1..], |p| - 1);
      SplitHasTwoParts(s[1..]);
    }
  }
}

=== FILE: variable_serializer.dfy ===
/** `serialize_variables`: the dictionary emitted for each shader constant,
    with its value cut to `rows * columns` entries of the view its type
    selects, and its members serialised the same way. */
module VariableSerializer {
  import opened Results
  import opened RenderDoc

  /** The `value` entry of a dictionary: absent, or a list. */
  datatype ValueEntry = NoValue | Value(values: seq<int>)

  /** The `members` entry of a dictionary: absent, or a list. */
  datatype MemberList = NoMembers | Members(entries: seq<VarInfo>)

  /** The dictionary emitted for one variable. */
  datatype VarInfo = VarInfo(
    name: string,
    varType: VarType,
    rows: nat,
    columns: nat,
    value: ValueEntry,
    members: MemberList)

  /** The value view a variable's type selects; other types have none. */
  function ViewOf(v: ShaderVariable): Option<seq<int>> {
    match v.varType
    case Float => Some(v.f32v)
    case Int => Some(v.s32v)
    case UInt => Some(v.u32v)
    case OtherType => None
  }

  /** Python's `view[:count]` for a non-negative count. */
  function Take(view: seq<int>, count: nat): (out: seq<int>)
    ensures |out| == if count < |view| then count else |view|
    ensures out == view[..|out|]
  {
    if count < |view| then view[..count] else view
  }

  /** The `value` entry of one variable. */
  function ValueEntryOf(v: ShaderVariable): ValueEntry {
    match ViewOf(v)
    case None => NoValue
    case Some(view) => Value(Take(view, v.rows * v.columns))
  }

  /** `serialize_variables`: one dictionary per variable, in order. */
  function SerializeVariables(vars: seq<ShaderVariable>): (r: seq<VarInfo>)
    ensures |r| == |vars|
    ensures forall i :: 0 <= i < |vars| ==> Describes(r[i], vars[i])
    decreases vars, 1
  {
    if |vars| == 0 then []
    else [SerializeVariable(vars[0])] + SerializeVariables(vars[1..])
  }

  /** The dictionary of one variable; `members` only when it has some. */
  function SerializeVariable(v: ShaderVariable): (r: VarInfo)
    ensures Describes(r, v)
    ensures r.members.Members? <==> |v.members| > 0
    ensures r.members.Members? ==> |r.members.entries| == |v.members|
    decreases v, 2
  {
    VarInfo(v.name, v.varType, v.rows, v.columns, ValueEntryOf(v),
            if |v.members| > 0 then Members(SerializeVariables(v.members)) else NoMembers)
  }

  /** A dictionary describes a variable: it copies the name, type and shape,
      has a value exactly for the three numeric types, and that value is the
      longest prefix of the selected view holding at most `rows * columns`
      entries. */
  predicate Describes(info: VarInfo, v: ShaderVariable) {
    && info.name == v.name
    && info.varType == v.varType
    && info.rows == v.rows
    && info.columns == v.columns
    && (info.value.Value? <==> v.varType != OtherType)
    && (info.value.Value? ==>
          var view := ViewOf(v).value;
          var n := |info.value.values|;
          && n <= |view|
          && info.value.values == view[..n]
          && n <= v.rows * v.columns
          && (n < v.rows * v.columns ==> n == |view|))
  }

  /** The names of a variable tree, independent of the representation. */
  datatype Shape = Shape(name: string, kids: seq<Shape>)

  function VarShapes(vars: seq<ShaderVariable>): seq<Shape>
    decreases vars, 1
  {
    if |vars| == 0 then [] else [VarShape(vars[0])] + VarShapes(vars[1..])
  }

  function VarShape(v: ShaderVariable): Shape
    decreases v, 2
  {
    Shape(v.name, VarShapes(v.members))
  }

  function InfoShapes(infos: seq<VarInfo>): seq<Shape>
    decreases infos, 1
  {
    if |infos| == 0 then [] else [InfoShape(infos[0])] + InfoShapes(infos[1..])
  }

  function InfoShape(info: VarInfo): Shape
    decreases info, 2
  {
    Shape(info.name, MemberShapes(info.members))
  }

  function MemberShapes(m: MemberList): seq<Shape>
    decreases m, 0
  {
    match m
    case NoMembers => []
    case Members(entries) => InfoShapes(entries)
  }

  /** The output has the input's tree shape: every variable at every depth
      is serialised, under its own name and in order, and nothing else. */
  lemma {:induction false} SerializeKeepsShape(vars: seq<ShaderVariable>)
    ensures InfoShapes(SerializeVariables(vars)) == VarShapes(vars)
    decreases vars, 1
  {
    if |vars| > 0 {
      SerializeVariableKeepsShape(vars[0]);
      SerializeKeepsShape(vars[1..]);
    }
  }

  lemma {:induction false} SerializeVariableKeepsShape(v: ShaderVariable)
    ensures InfoShape(SerializeVariable(v)) == VarShape(v)
    decreases v, 2
  {
    if |v.members| > 0 {
      SerializeKeepsShape(v.members);
    }
  }

  /** Every dictionary in the output tree describes the variable at the same
      position of the input tree. */
  predicate Mirrors(infos: seq<VarInfo>, vars: seq<ShaderVariable>)
    decreases vars
  {
    && |infos| == |vars|
    && forall i :: 0 <= i < |vars| ==>
         && Describes(infos[i], vars[i])
         && (infos[i].members.Members? <==> |vars[i].members| > 0)
         && (infos[i].members.Members? ==> Mirrors(infos[i].members.entries, vars[i].members))
  }

  lemma {:induction false} SerializeMirrors(vars: seq<ShaderVariable>)
    ensures Mirrors(SerializeVariables(vars), vars)
    decreases vars
  {
    var r := SerializeVariables(vars);
    forall i | 0 <= i < |vars|
      ensures Describes(r[i], vars[i])
      ensures r[i].members.Members? <==> |vars[i].members| > 0
      ensures r[i].members.Members? ==> Mirrors(r[i].members.entries, vars[i].members)
    {
      SerializeElement(vars, i);
      if |vars[i].members| > 0 {
        SerializeMirrors(vars[i].members);
      }
    }
  }

  /** Each output entry is the single-variable dictionary of its input. */
  lemma {:induction false} SerializeElement(vars: seq<ShaderVariable>, i: nat)
    requires i < |vars|
    ensures SerializeVariables(vars)[i] == SerializeVariable(vars[i])
    decreases i
  {
    if i > 0 {
      SerializeElement(vars[1..], i - 1);
    }
  }
}
